=== FILE: README.md ===
# monk.ts core, modelled in Dafny

monk.ts is a thin layer over the MongoDB driver. This project models four of
its pieces as pure functions over immutable values and proves properties of
them.

- **Query builder** (`createQuery`, module `Query`). Its state is a map from
  query key to what is stored there, plus an optional projection:
  - the key may hold a field's operator map, a combinator's sub-query list or
    the negated sub-query;
  - each builder method is a function from the old state to the new one;
  - `toQuery` renders the state through the host's marshal step, which is a
    parameter.
- **Default marshaller** (module `Marshal`). It has an ignore unit for
  ObjectId and Date and the unit that renames `id` to `_id` on the way to
  the store and `_id` to `id` on the way back. The chain mechanics of the
  marshalling library appear as a stated assumption; the library itself is
  not part of this model.
- **Document helpers** (module `Util`):
  - `isValidMongoObj`;
  - the development-mode check `checkPojo`, modelled as "returns normally"
    together with the set of documents it may raise on;
  - `omit`.

  `checkPojo` returns early for an array without inspecting its elements
  (src/util.ts:12); Util.ArrayElementsNotInspected states it.
- **`Monk.manageIndexes`**, as two modules:
  - `Indexes`: the per-collection loop names every declared index by the
    hash of its normalised declaration, builds its key pattern, and creates,
    keeps or drops indexes against the recorded list. A run goes through all
    collections and stops at the first rejection.
  - `IndexStore`: the `managed-indexes` collection that holds the records,
    and repeated calls over it.

Shared modules:
- `Values` holds the document value type.
- `Seqs` holds sequence helpers for JavaScript's insertion-ordered `Set`:
  duplicate removal and filtering.

Side effects appear as data. A run of `manageIndexes` is its list of effects
(create index, drop index, save record) and an optional failure. The
following are parameters:
- the store's answer to a create call;
- the loaded records;
- the hash function;
- whether a database is selected.

## Model

| member | source | states |
|---|---|---|
| Query.KeywordsDistinct | src/query.ts:88-103 | No comparison method writes a combinator key or `$not`, and the three combinator keys are pairwise distinct, so the methods never clobber each other's entries |
| Query.Create | src/query.ts:105-107 | A new builder has an empty query map and no projection |
| Query.Sub | src/query.ts:106 | `sub()` returns a fresh, empty builder whatever the state of the builder it is called on |
| Query.Is | src/query.ts:110-113 | `is` merges the fragment into the field's operator map: the fragment's keys overwrite, the field's other operators stay, and other keys and the projection are untouched. On a combinator or negation key nothing renderable changes |
| Query.IsMerges | src/query.ts:111 | Two `is` calls on one field equal one call with the merged fragment |
| Query.IsCommutesAcrossFields | src/query.ts:110-113 | `is` calls on different fields commute |
| Query.Compare | src/query.ts:153-158 | A comparison method sets exactly its operator key on the field's map, keeps the field's other operators, and leaves other keys and the projection alone |
| Query.CompareStores | src/query.ts:156 | A comparison on an assignable field stores the field's old operators updated with the one operator |
| Query.Aliases | src/query.ts:93-114 | `exact` and `equals` are the same operation, and `has(f)` is `has(f, true)` |
| Query.Has | src/query.ts:114 | `has(f, p)` sets `$exists` to `p`, which defaults to true, and changes nothing else |
| Query.Combine | src/query.ts:145-151 | `all`/`any`/`xor` store the list under `$and`/`$or`/`$xor`, replacing that key only |
| Query.CombineReplaces | src/query.ts:148 | A second call of the same combinator replaces the first list |
| Query.CombinatorsIndependent | src/query.ts:145-151 | Different combinators, and a combinator and `not`, keep separate entries |
| Query.Not | src/query.ts:115-118 | `not` stores the sub-query under `$not` and changes no other key or the projection |
| Query.NotReplaces | src/query.ts:116 | A later `not` replaces the earlier negation |
| Query.Extract | src/query.ts:120-123 | `extract` makes the projection exactly `{f: 1}` over the given fields and leaves the query map alone |
| Query.Exclude | src/query.ts:124-131 | `exclude()` with no fields clears the projection; otherwise the projection becomes exactly `{f: 0}` over the given fields |
| Query.ProjectionNeverMixes | src/query.ts:120-131 | A projection never mixes 1 and 0; `exclude()` clears an extraction; a later `extract` overrides an exclusion |
| Query.GetProjection | src/query.ts:142 | No contract of its own; Extract, Exclude and ProjectionNeverMixes state what it returns |
| Query.ToQuery | src/query.ts:132-141 | The rendered filter has exactly the builder's keys |
| Query.Render | src/query.ts:134-138 | A negated sub-query renders as an object with exactly the sub-query's keys; any other stored value goes to the host's marshal |
| Query.RenderAfterCompare | src/query.ts:132-141 | After a comparison, the field renders as the host's marshalling of its merged operator map, and every other key renders as before |
| Query.RenderNegation | src/query.ts:135-136 | A negated sub-query renders through its own `toQuery`, not through the host's marshal |
| Query.FreshQueryIsEmpty | src/query.spec.ts:14-15 | A new builder renders to `{}` and has no projection |
| Query.FirstComparison | src/query.spec.ts:17-18 | `exact('type','foo')` stores `{type: {$eq: 'foo'}}` |
| Query.SecondComparison | src/query.spec.ts:20-21 | Then `greaterThan('count', 5)` adds `count: {$gt: 5}` |
| Query.ThirdComparison | src/query.spec.ts:23-24 | Then `lessThanOrEqual('count', 10)` merges into `count: {$gt: 5, $lte: 10}` instead of overwriting it |
| Query.AccumulationRenders | src/query.spec.ts:13-24 | With the default marshaller as host, that state renders to exactly the filter the test expects |
| Marshal.Renamed | src/marshal.ts:7 | The renamed object has the source key removed and the target key set. A target key already present keeps its own value, because the spread comes last. All other values are unchanged |
| Marshal.IgnoredUnchanged | src/marshal.ts:17 | ObjectId and Date pass through either direction untouched |
| Marshal.PassbackIsFullMarshal | src/marshal.ts:7 | The morph result is the whole marshaller applied to the renamed object |
| Marshal.RenameStep | src/marshal.ts:4-14 | In either direction, a claimed object becomes a plain object: it has the target key and every other property but the source key, each marshalled, and an existing target key wins |
| Marshal.OutboundRenamesId | src/marshal.ts:5-8 | Outbound: an object whose `id` is an ObjectId gets `_id` instead of `id` |
| Marshal.InboundRenamesId | src/marshal.ts:9-12 | Inbound: an object whose `_id` is an ObjectId gets `id` instead of `_id` |
| Marshal.Run | src/marshal.ts:4-19 | No contract of its own; RoundTrip, RenameStep, UnclaimedObjectStructural, IgnoredUnchanged and PassbackIsFullMarshal characterise it |
| Marshal.UnclaimedObjectStructural | src/marshal.ts:16-19 | A plain object the renaming unit does not claim keeps its keys, and each value is marshalled on its own |
| Marshal.RoundTrip | src/marshal.ts:4-19 | Marshalling one way and then the other returns the original document, in both orders, for a Restorable document: no object or class instance already uses the key the trip writes, and no class instance is claimed by the renaming unit (the spread would rebuild it as a plain object) |
| Marshal.IdDocumentRoundTrip | src/marshal.spec.ts:20-28 | A document with an ObjectId `id`, no `_id`, and only Restorable property values reads back equal to itself after a store and a load |
| Marshal.IdentifierExample | src/marshal.spec.ts:24-27 | `{id, foo: 'bar'}` is stored as `{_id, foo: 'bar'}` |
| Marshal.InboundExample | src/marshal.spec.ts:7-18 | A stored `{_id, foo, createdAt: Date}` reads back as `{id, foo, createdAt}` with the Date untouched |
| Marshal.RenamerAsWritten | src/marshal.ts:4-14 | The unit as written raises exactly when it claims a value, and never produces a renamed value |
| Marshal.Renamer | src/marshal.ts:4-14 | With `omit` bound, the unit passes exactly the values it does not claim and morphs the others into their full marshalling |
| Marshal.UnboundOmitRaises | src/marshal.ts:7 | On the test's document, the unit as written raises where the bound unit produces `{_id, foo}` |
| Util.IsValidMongoObj | src/util.ts:25-31 | Reading `constructor` of `null` raises. Otherwise a value is valid iff it is not an object, or is a plain object without its own `constructor` property, an array, a Date or an ObjectId |
| Util.Offenders | src/util.ts:9-23 | Every document the check may raise on is an object that `isValidMongoObj` rejects. Arrays, Dates, byte arrays and non-objects yield none |
| Util.CheckPojo | src/util.ts:9-23 | No contract of its own; CheckPojoRaisesIffOffender and ArrayElementsNotInspected characterise it |
| Util.CheckPojoRaisesIffOffender | src/util.ts:9-23 | `checkPojo` returns normally iff no offender is reachable; a plain object passes iff each of its property values passes |
| Util.ArrayElementsNotInspected | src/util.ts:12 | An array passes even when one of its elements would fail on its own |
| Util.Omit | src/util.ts:33 | `omit` keeps exactly the keys not listed, with their values |
| Util.OmitRestore | src/util.ts:33 | Putting back the one omitted entry restores the object |
| Indexes.Normalize | src/monk.ts:149 | Absent `sparse`/`unique` default to false; the field list is kept as declared |
| Indexes.OmittedFlagsNameAlike | src/monk.ts:157-158 | Leaving a flag out names the index exactly as writing `false` does |
| Indexes.KeyPatternOf | src/monk.ts:150-154 | Building the key pattern fails exactly when some field object is empty |
| Indexes.KeyPatternOrder | src/monk.ts:150-154 | The key pattern lists each field object's first key once, in order of first appearance |
| Indexes.KeyPatternLastWins | src/monk.ts:151-154 | A key given by several field objects takes the direction of the last of them |
| Indexes.CallFor | src/monk.ts:150-160 | The create call carries the key pattern built from the field objects, is named by the hash of the normalised declaration, and carries its flags |
| Indexes.Step | src/monk.ts:149-164 | An empty field object stops the loop with the creates so far. A refused create stops it right after that call, which is the declaration's own create call, and only for a name not pending removal. Otherwise the name is in `added` and no longer pending removal |
| Indexes.Fold | src/monk.ts:149-165 | When a create is refused, the loop stops right after issuing that call |
| Indexes.FoldInvariant | src/monk.ts:146-165 | The loop state stays equal to a reference definition. The pending set holds the recorded names not yet declared, `added` holds the declared names without repeats, and the creates issued are the reference ones |
| Indexes.FoldCompletes | src/monk.ts:149-165 | The loop completes exactly when every declaration has a key pattern and the store accepts every reference create |
| Indexes.Reconcile | src/monk.ts:146-175 | One collection completes iff its declarations are well formed and every needed create is accepted. Then it creates the reference calls and drops each recorded, undeclared name once. It saves the declared names without repeats |
| Indexes.CreatesCoverNew | src/monk.ts:159-161 | Every create is for a declared name, and every declared name not in the record is created |
| Indexes.DuplicateRecreated | src/monk.ts:159-164 | A name declared twice is created again at its second declaration, even when it was recorded |
| Indexes.NothingToCreate | src/monk.ts:159-175 | With nothing to create, a collection drops the reference leftovers and saves the declared names |
| Indexes.RerunIsIdempotent | src/monk.ts:146-175 | Re-running a declaration against its own record creates nothing, drops nothing and saves the same record |
| Indexes.RemovingOneDropsIt | src/monk.spec.ts:11-27 | Removing one declaration from a reconciled list drops exactly that index and creates nothing |
| Indexes.ManageIndexes | src/monk.ts:138-139 | With no database selected the call rejects before any effect |
| Indexes.OutcomeIsReconcile | src/monk.ts:143-176 | Each collection of a run is reconciled against its own loaded record |
| Indexes.Collections | src/monk.ts:143-176 | No contract of its own; OutcomeIsReconcile, RunFailsAtFirstFailure, RunSavesCompletedPrefix and RunStopsAtFailure characterise it |
| Indexes.Completed | src/monk.ts:143-176 | The collections counted as completed all reconcile successfully |
| Indexes.RunFailsAtFirstFailure | src/monk.ts:143-176 | A run rejects iff some collection fails, and then with the first failing collection's reason |
| Indexes.RunSavesCompletedPrefix | src/monk.ts:172-175 | A run saves one record per collection before the first failure, in declaration order, each with that collection's reconciled list, and no other record |
| Indexes.RunStopsAtFailure | src/monk.ts:143-176 | No effect touches a collection after the first failing one |
| IndexStore.FindRecord | src/monk.ts:145 | The lookup finds the first record of the collection in natural order, or none when there is none |
| IndexStore.SaveAsWritten | src/collection.ts:42-48 | A save as written appends a record. A collection that already has one keeps answering with its first, stale record (with the lookup's unbound `omit` fixed) |
| IndexStore.SaveRecord | src/monk.ts:172-175 | The intended save leaves the collection's lookup answering with the new list, and other collections unchanged |
| IndexStore.Deploy | src/monk.ts:159-171 | A failed collection removes no index. After a completed one, no dropped name remains and every created name that was not dropped is in place. No index appears that was neither there before nor created by a create that took effect |
| IndexStore.OutcomeFor | src/monk.ts:145-171 | No contract of its own; OutcomeForIsReconcile equates it with Reconcile against the loaded record under a store that accepts every create |
| IndexStore.CycleAsWritten | src/monk.ts:143-176 | No contract of its own; FirstCycleAsWrittenConverges and StaleRecordLosesIndex characterise it |
| IndexStore.Cycle | src/monk.ts:143-176 | No contract of its own; CycleConverges and OverwrittenRecordKeepsIndex characterise it |
| IndexStore.CycleLeavesDeclared | src/monk.ts:146-171 | When the store accepts every create and every declaration is well formed, a call against a record that matches the indexes in place leaves exactly the declared indexes |
| IndexStore.CycleConverges | src/monk.ts:143-176 | With the record overwritten, a store that accepts every create and well-formed declarations, every call from a consistent state leaves exactly the declared indexes and a consistent record |
| IndexStore.FirstCycleAsWrittenConverges | src/monk.ts:143-176 | Saving as written, with a store that accepts every create and well-formed declarations, the first call for a collection still converges |
| IndexStore.StaleRecordLosesIndex | src/monk.ts:172-175 | Saving as written, declaring [A, B], then [A], then [A, B] leaves B missing, once the lookup no longer raises on the unbound `omit` |
| IndexStore.RefusedCreateNotDeployed | src/monk.ts:159-161 | Whenever a collection rejects because the store refused a create, the indexes afterwards are those before plus the creates issued ahead of the refused one: the refused call builds no index |
| IndexStore.RefusedCreateExample | src/monk.ts:159-161 | Declaring [A] on an empty collection whose store refuses every create rejects and leaves no index |
| IndexStore.OverwrittenRecordKeepsIndex | src/monk.ts:172-175 | With the record overwritten, the same three calls leave both indexes in place |

## Left out

- Query validation helpers: `isValid`, `match` and `oneOf` are not part of this model.
- The typed API object that `createQuery` merges in, and the identity of `this` in chained calls, are not modelled. Chaining is function composition.
- Query.Is: on a key holding a combinator list or a negated sub-query, the source assigns the fragment's properties onto that array or builder object. The model leaves the state unchanged, assuming the host's marshal ignores non-index array properties.
- Query.Is: a field named after an `Object.prototype` member (`constructor`, `toString`, `valueOf`, `hasOwnProperty`, `__proto__`) is not modelled as the source behaves. There `query[field] ?? {}` (src/query.ts:111) reads the inherited member, so `Object.assign` writes the operators onto a shared built-in object (for `__proto__`, onto `Object.prototype` itself), and the filter never gets `{field: {$eq: …}}`. The model stores such a field like any other.
- Query.Is: fragments that are not plain objects are not modelled. `value: any` (src/query.ts:110) lets a string spread its characters under index keys and a number add nothing; a fragment here is always a string-keyed map.
- Sub-queries are values. In the source, a stored sub-query is a live object, and later calls on it change what the parent renders.
- Query.ToQuery: its own contract only fixes the key set. The rendered values are stated by RenderAfterCompare and RenderNegation, because the host's marshal is a parameter.
- Query.ToQuery: a negated sub-query is rendered with its parent's host marshal. `not()` (src/query.ts:115) accepts any query, whose own `toQuery` may use a different host; the model assumes the shared host that a builder made by `sub()` has.
- The marshalling library (`@kiruse/marshal`) is not part of this model. Its chain semantics are an assumption:
  - units are tried in order;
  - a morph result is final;
  - unclaimed arrays and plain objects are rebuilt element-wise;
  - other values are returned unchanged.
- An ObjectId is treated as having no enumerable own properties. An unclaimed class instance is not rebuilt by structural recursion; a claimed instance comes back as a plain object.
- Marshal.RoundTrip: promised only for Restorable documents. A claimed class instance is rebuilt as a plain object by the spread at src/marshal.ts:7/11, so it does not survive the trip; nor does an object that already holds the key the trip writes.
- Marshal.IdDocumentRoundTrip: promised only when every property value is Restorable. A nested `{_id: <ObjectId>}`, for example, reads back as `{id: <ObjectId>}`.
- Util.CheckPojoRaisesIffOffender: it does not say which offender is raised, because that depends on property enumeration order. It also leaves out symbol keys, which never occur in a string-keyed map.
- Numbers are integers; floating point is not modelled.
- Connection, session and database handling, `Collection`/`Cursor` methods other than the record lookup and save, YAML and environment loading, and asynchrony are left out.
- `getObjectHash` (SHA-256 of `JSON.stringify`) is a parameter `hash`. The model assumes only that it is a deterministic function of the normalised declaration, not that it is collision-free.
- MongoDB filter semantics, and which documents a query matches, are not modelled.
- The lookup of the record: the model treats its natural order as insertion order. The server does not promise this.
- Indexes.Completed and IndexStore: a failing record lookup or record save is not modelled. Only a refused create call and an empty field object reject a collection; the per-collection and run models (`Indexes`) take the store's answer as a parameter, and the repeated-call model (`IndexStore`) fixes it to acceptance. As written, the lookup at src/monk.ts:145 always fails once a collection has a record: reading the record back runs the renaming unit on its ObjectId `_id`, and that unit calls the unbound `omit` (src/marshal.ts:11). The store model assumes that defect fixed.
- IndexStore.CycleLeavesDeclared: proved only for a store that accepts every create call and for declarations whose field objects are all non-empty. A refused create rejects the collection and leaves its declared index missing (RefusedCreateNotDeployed). The server may refuse a create: creates are issued before drops (src/monk.ts:159-161 runs before 167-171), so changing only `sparse` or `unique` asks for a second index on the same key pattern while the old one still exists.
- IndexStore.CycleConverges: same assumption as CycleLeavesDeclared: every create accepted and every declaration well formed.
- IndexStore.FirstCycleAsWrittenConverges: same assumption as CycleLeavesDeclared: every create accepted and every declaration well formed.
- Drop errors are swallowed by the source and have no effect on the outcome. A drop is an effect that cannot fail.
- A key pattern's order is insertion order. JavaScript's reordering of integer-like keys in `idx` is not modelled.
- Field entries that are not objects, and directions other than `1`, `-1`, `'text'` and `'hashed'`, are not modelled.

## Findings

| source | as written | input that shows it | evidently intended | confidence | as-written member | corrected member |
|---|---|---|---|---|---|---|
| src/marshal.ts:7 | `omit` is called but never imported into the module, and the line's type error is suppressed, so the renaming unit raises a ReferenceError whenever it claims a value; this includes reading back any stored document with an ObjectId `_id`, such as the record lookup at src/monk.ts:145 | marshalling `{ id: <ObjectId>, foo: 'bar' }` outbound (UnboundOmitRaises) | `omit` bound to the helper of src/util.ts, renaming to `{ _id: <ObjectId>, foo: 'bar' }` | high; not executed | Marshal.RenamerAsWritten | Marshal.Renamer |
| src/monk.ts:172-175 | `idx.save({ collection, indexes })` has no `_id`, so `save` (src/collection.ts:45-46) upserts under a fresh ObjectId and inserts a new record each call. The lookup at src/monk.ts:145 keeps returning the first, stale one | declaring indexes [A, B], then [A], then [A, B] for one collection: the third call sees B as recorded, neither creates nor keeps it, and B is missing (StaleRecordLosesIndex). The input presupposes the src/marshal.ts:7/11 defect fixed: as written, the second call already rejects at the lookup | one record per collection, overwritten on each call, so every call converges to the declared indexes (CycleConverges, OverwrittenRecordKeepsIndex) | medium; not executed | IndexStore.SaveAsWritten | IndexStore.SaveRecord |

=== FILE: indexes.dfy ===
/** `Monk.manageIndexes` (src/monk.ts): declared indexes are reconciled
    against the hash list recorded in the `managed-indexes` collection. Every
    index is named by the hash of its normalised declaration; a declared
    index whose name is still pending from the record is kept, a new one is
    created, and recorded names that are no longer declared are dropped. */
module Indexes {
  import opened Values
  import opened Seqs

  /** A key direction as declared: `1`, `-1`, `'text'` or `'hashed'`. */
  datatype Direction = Ascending | Descending | Text | Hashed

  /** One element of a declaration's `fields` list: the object's own
      entries, in property order. */
  type FieldObject = seq<(string, Direction)>

  /** One declared index; an absent flag is `None`. */
  datatype IndexSpec = IndexSpec(fields: seq<FieldObject>, sparse: Option<bool>, unique: Option<bool>)

  /** `{ fields, sparse, unique }`, the object whose hash names the index. */
  datatype HashInput = HashInput(fields: seq<FieldObject>, sparse: bool, unique: bool)

  /** The destructuring defaults: both flags default to false; the field
      list is hashed as declared. */
  function Normalize(spec: IndexSpec): (r: HashInput)
    ensures r.fields == spec.fields
    ensures r.sparse <==> spec.sparse == Some(true)
    ensures r.unique <==> spec.unique == Some(true)
  {
    HashInput(spec.fields, spec.sparse.GetOr(false), spec.unique.GetOr(false))
  }

  /** The generated index name. `hash` stands for `getObjectHash`, a
      deterministic function of its input. */
  function IndexName(spec: IndexSpec, hash: HashInput -> string): string {
    hash(Normalize(spec))
  }

  /** Leaving a flag out names the index exactly as writing `false` does. */
  lemma OmittedFlagsNameAlike(fields: seq<FieldObject>, hash: HashInput -> string)
    ensures IndexName(IndexSpec(fields, None, None), hash)
         == IndexName(IndexSpec(fields, Some(false), Some(false)), hash)
    ensures IndexName(IndexSpec(fields, None, Some(true)), hash)
         == IndexName(IndexSpec(fields, Some(false), Some(true)), hash)
    ensures IndexName(IndexSpec(fields, Some(true), None), hash)
         == IndexName(IndexSpec(fields, Some(true), Some(false)), hash)
  {
  }

  // ----- The key pattern handed to createIndex -----

  /** The object `idx` that the key loop builds: its property names in
      insertion order and the value stored under each. */
  datatype KeyPattern = KeyPattern(order: seq<string>, dirs: map<string, Direction>) {
    /** `idx[name] = d`: a new name is appended, an existing one keeps its
        place and takes the new value. */
    function Assign(name: string, d: Direction): KeyPattern {
      KeyPattern(if name in dirs then order else order + [name], dirs[name := d])
    }
  }

  predicate NoEmptyField(fields: seq<FieldObject>) {
    forall i | 0 <= i < |fields| :: fields[i] != []
  }

  /** The first property name of every field object. */
  function FirstNames(fields: seq<FieldObject>): (r: seq<string>)
    requires NoEmptyField(fields)
    ensures |r| == |fields|
  {
    if |fields| == 0 then []
    else
      var init := fields[..|fields| - 1];
      assert forall i | 0 <= i < |init| :: init[i] == fields[i];
      FirstNames(init) + [fields[|fields| - 1][0].0]
  }

  lemma {:induction false} FirstNamesAt(fields: seq<FieldObject>, i: nat)
    requires NoEmptyField(fields) && i < |fields|
    ensures FirstNames(fields)[i] == fields[i][0].0
  {
    var n := |fields| - 1;
    if i < n {
      var init := fields[..n];
      assert forall k | 0 <= k < |init| :: init[k] == fields[k];
      FirstNamesAt(init, i);
    }
  }

  /** The key loop: each field object contributes its first entry. An empty
      field object makes `Object.entries(field)[0]` undefined and the
      destructuring raises a TypeError, modelled as `None`. */
  function KeyPatternOf(fields: seq<FieldObject>): (r: Option<KeyPattern>)
    ensures r.None? <==> !NoEmptyField(fields)
  {
    if |fields| == 0 then Some(KeyPattern([], map[]))
    else
      var last := fields[|fields| - 1];
      match KeyPatternOf(fields[..|fields| - 1])
      case None => None
      case Some(p) => if last == [] then None else Some(p.Assign(last[0].0, last[0].1))
  }

  /** One more field object assigns its first entry. */
  lemma KeyPatternSnoc(fields: seq<FieldObject>)
    requires NoEmptyField(fields) && |fields| > 0
    ensures var n := |fields| - 1;
      && NoEmptyField(fields[..n])
      && KeyPatternOf(fields) == Some(KeyPatternOf(fields[..n]).value.Assign(fields[n][0].0, fields[n][0].1))
      && FirstNames(fields) == FirstNames(fields[..n]) + [fields[n][0].0]
  {
    var init := fields[..|fields| - 1];
    assert forall k | 0 <= k < |init| :: init[k] == fields[k];
  }

  /** Assigning one more name extends the order as deduplication does. */
  lemma AssignOrder(p: KeyPattern, names: seq<string>, x: string, d: Direction)
    requires p.order == Dedup(names) && p.dirs.Keys == Elems(names)
    ensures p.Assign(x, d).order == Dedup(names + [x])
  {
    DedupSnoc(names, x);
    assert x in p.dirs <==> x in Elems(names);
  }

  lemma AssignKeys(p: KeyPattern, names: seq<string>, x: string, d: Direction)
    requires p.dirs.Keys == Elems(names)
    ensures p.Assign(x, d).dirs.Keys == Elems(names + [x])
  {
    ElemsSnoc(names, x);
  }

  /** The key pattern lists each first name once, in order of first
      appearance. */
  lemma {:induction false} KeyPatternOrder(fields: seq<FieldObject>)
    requires NoEmptyField(fields)
    ensures KeyPatternOf(fields).value.order == Dedup(FirstNames(fields))
    ensures KeyPatternOf(fields).value.dirs.Keys == Elems(FirstNames(fields))
  {
    if |fields| > 0 {
      var n := |fields| - 1;
      var init := fields[..n];
      KeyPatternSnoc(fields);
      KeyPatternOrder(init);
      AssignOrder(KeyPatternOf(init).value, FirstNames(init), fields[n][0].0, fields[n][0].1);
      AssignKeys(KeyPatternOf(init).value, FirstNames(init), fields[n][0].0, fields[n][0].1);
    }
  }

  /** A name given by several field objects keeps the direction of the last
      of them. */
  lemma {:induction false} KeyPatternLastWins(fields: seq<FieldObject>, i: nat)
    requires NoEmptyField(fields) && i < |fields|
    requires LastOccurrence(FirstNames(fields), i)
    ensures fields[i][0].0 in KeyPatternOf(fields).value.dirs
    ensures KeyPatternOf(fields).value.dirs[fields[i][0].0] == fields[i][0].1
  {
    var n := |fields| - 1;
    var init := fields[..n];
    KeyPatternSnoc(fields);
    if i < n {
      var names := FirstNames(fields);
      assert names[n] != names[i];
      forall j | i < j < n ensures FirstNames(init)[j] != FirstNames(init)[i] {
        assert names[j] == FirstNames(init)[j];
      }
      FirstNamesAt(fields, i);
      KeyPatternLastWins(init, i);
    }
  }

  // ----- Reconciling one collection -----

  /** `coll.createIndex(keys, { sparse, unique, name })`. */
  datatype CreateCall = CreateCall(keys: KeyPattern, sparse: bool, unique: bool, name: string)

  /** Why `manageIndexes` rejects. */
  datatype Failure = NoDatabaseSelected | EmptyFieldObject | CreateFailed(call: CreateCall)

  /** The loop state of one collection: the pending `removed` set, the
      `added` set (both in insertion order) and the creates issued. */
  datatype Progress = Progress(removed: seq<string>, added: seq<string>, creates: seq<CreateCall>)

  datatype Loop = Running(progress: Progress) | Stopped(issued: seq<CreateCall>, failure: Failure)

  /** The outcome for one collection: the index creates issued, then the
      names dropped and the list saved as the new record; or the creates
      issued before the rejection (the last of them the failing one, when
      a create failed). */
  datatype Outcome =
    | Done(creates: seq<CreateCall>, drops: seq<string>, record: seq<string>)
    | Failed(issued: seq<CreateCall>, failure: Failure)

  /** Every declared index yields a key pattern. */
  predicate WellFormed(specs: seq<IndexSpec>) {
    forall i | 0 <= i < |specs| :: NoEmptyField(specs[i].fields)
  }

  lemma WellFormedSnoc(specs: seq<IndexSpec>)
    requires |specs| > 0
    ensures WellFormed(specs)
        <==> WellFormed(specs[..|specs| - 1]) && NoEmptyField(specs[|specs| - 1].fields)
  {
    var init := specs[..|specs| - 1];
    assert forall i | 0 <= i < |init| :: init[i] == specs[i];
  }

  /** The create call issued for a declared index. */
  function CallFor(spec: IndexSpec, hash: HashInput -> string): (r: CreateCall)
    requires NoEmptyField(spec.fields)
    ensures r.name == IndexName(spec, hash)
    ensures r.keys == KeyPatternOf(spec.fields).value
    ensures r.sparse == Normalize(spec).sparse && r.unique == Normalize(spec).unique
  {
    var n := Normalize(spec);
    CreateCall(KeyPatternOf(spec.fields).value, n.sparse, n.unique, hash(n))
  }

  /** One iteration of the declaration loop. `createOk` says whether the
      store accepts a create call. */
  function Step(p: Progress, spec: IndexSpec, hash: HashInput -> string, createOk: CreateCall -> bool): (r: Loop)
    ensures !NoEmptyField(spec.fields) ==> r == Stopped(p.creates, EmptyFieldObject)
    ensures r.Stopped? && r.failure.CreateFailed? ==>
      && IndexName(spec, hash) !in Elems(p.removed)
      && r.failure.call == CallFor(spec, hash)
      && !createOk(r.failure.call)
      && r.issued == p.creates + [r.failure.call]
    ensures r.Running? ==>
      && IndexName(spec, hash) in Elems(r.progress.added)
      && IndexName(spec, hash) !in Elems(r.progress.removed)
      && Elems(r.progress.removed) == Elems(p.removed) - {IndexName(spec, hash)}
  {
    if !NoEmptyField(spec.fields) then Stopped(p.creates, EmptyFieldObject)
    else
      var call := CallFor(spec, hash);
      var h := call.name;
      var creates := if h in p.removed then p.creates else p.creates + [call];
      if h !in p.removed && !createOk(call) then Stopped(creates, CreateFailed(call))
      else Running(Progress(Minus(p.removed, [h]), if h in p.added then p.added else p.added + [h], creates))
  }

  /** The declaration loop over `specs`, starting from the recorded list;
      the first rejection ends it. */
  function Fold(recorded: seq<string>, specs: seq<IndexSpec>, hash: HashInput -> string,
                createOk: CreateCall -> bool): (r: Loop)
    ensures r.Stopped? && r.failure.CreateFailed? ==>
      |r.issued| > 0 && r.issued[|r.issued| - 1] == r.failure.call && !createOk(r.failure.call)
  {
    if |specs| == 0 then Running(Progress(Dedup(recorded), [], []))
    else
      match Fold(recorded, specs[..|specs| - 1], hash, createOk)
      case Stopped(c, f) => Stopped(c, f)
      case Running(p) => Step(p, specs[|specs| - 1], hash, createOk)
  }

  /** The names of the declared indexes, in declaration order. */
  function Declared(specs: seq<IndexSpec>, hash: HashInput -> string): (r: seq<string>)
    ensures |r| == |specs|
  {
    if |specs| == 0 then []
    else Declared(specs[..|specs| - 1], hash) + [IndexName(specs[|specs| - 1], hash)]
  }

  lemma {:induction false} DeclaredAt(specs: seq<IndexSpec>, hash: HashInput -> string, i: nat)
    requires i < |specs|
    ensures Declared(specs, hash)[i] == IndexName(specs[i], hash)
  {
    var n := |specs| - 1;
    if i < n {
      DeclaredAt(specs[..n], hash, i);
    }
  }

  lemma {:induction false} DeclaredAppend(a: seq<IndexSpec>, b: seq<IndexSpec>, hash: HashInput -> string)
    ensures Declared(a + b, hash) == Declared(a, hash) + Declared(b, hash)
  {
    if |b| == 0 {
      assert a + b == a;
    } else {
      var n := |b| - 1;
      assert (a + b)[..|a| + n] == a + b[..n];
      DeclaredAppend(a, b[..n], hash);
    }
  }

  /** Reference condition: declaration `i` is created unless its name is
      recorded and has not been claimed by an earlier declaration. */
  predicate NeedsCreate(recorded: seq<string>, declared: seq<string>, i: nat)
    requires i < |declared|
  {
    declared[i] !in Elems(recorded) - Elems(declared[..i])
  }

  /** Reference list of create calls: one per declaration that needs
      creating, in declaration order. */
  function ExpectedCreates(recorded: seq<string>, specs: seq<IndexSpec>, hash: HashInput -> string): seq<CreateCall>
    requires WellFormed(specs)
  {
    if |specs| == 0 then []
    else
      var n := |specs| - 1;
      ExpectedCreates(recorded, specs[..n], hash)
        + (if NeedsCreate(recorded, Declared(specs, hash), n) then [CallFor(specs[n], hash)] else [])
  }

  /** What one step that does not reject does to the loop state. */
  lemma StepEffect(p: Progress, spec: IndexSpec, hash: HashInput -> string, createOk: CreateCall -> bool)
    requires Step(p, spec, hash, createOk).Running?
    ensures NoEmptyField(spec.fields)
    ensures var h := IndexName(spec, hash);
      Step(p, spec, hash, createOk).progress == Progress(
        Minus(p.removed, [h]),
        if h in p.added then p.added else p.added + [h],
        if h in p.removed then p.creates else p.creates + [CallFor(spec, hash)])
  {
  }

  /** The set algebra behind one step of the loop invariant, with `prev`
      the names declared before `h`. */
  lemma InvariantAlgebra(recorded: seq<string>, prev: seq<string>, h: string)
    ensures h in Minus(Dedup(recorded), prev) <==> h in Elems(recorded) - Elems(prev)
    ensures h in Dedup(prev) <==> h in Elems(prev)
    ensures Minus(Minus(Dedup(recorded), prev), [h]) == Minus(Dedup(recorded), prev + [h])
    ensures Dedup(prev + [h]) == if h in Dedup(prev) then Dedup(prev) else Dedup(prev) + [h]
  {
    MinusOneMore(Dedup(recorded), prev, h);
    DedupSnoc(prev, h);
  }

  /** The loop invariant: pending names are the recorded ones not yet
      declared, `added` is the declared names without repeats, and the
      creates are exactly the reference ones. */
  predicate Invariant(recorded: seq<string>, specs: seq<IndexSpec>, hash: HashInput -> string, p: Progress) {
    && WellFormed(specs)
    && p == Progress(
      Minus(Dedup(recorded), Declared(specs, hash)),
      Dedup(Declared(specs, hash)),
      ExpectedCreates(recorded, specs, hash))
  }

  lemma {:induction false} FoldInvariant(recorded: seq<string>, specs: seq<IndexSpec>,
                                         hash: HashInput -> string, createOk: CreateCall -> bool)
    requires Fold(recorded, specs, hash, createOk).Running?
    ensures Invariant(recorded, specs, hash, Fold(recorded, specs, hash, createOk).progress)
  {
    if |specs| > 0 {
      var init := specs[..|specs| - 1];
      FoldInvariant(recorded, init, hash, createOk);
      InvariantStep(recorded, specs, hash, createOk, Fold(recorded, init, hash, createOk).progress);
    } else {
      MinusNothing(Dedup(recorded));
    }
  }

  /** One step of the loop keeps the invariant. */
  lemma InvariantStep(recorded: seq<string>, specs: seq<IndexSpec>, hash: HashInput -> string,
                      createOk: CreateCall -> bool, p: Progress)
    requires |specs| > 0
    requires Invariant(recorded, specs[..|specs| - 1], hash, p)
    requires Step(p, specs[|specs| - 1], hash, createOk).Running?
    ensures Invariant(recorded, specs, hash, Step(p, specs[|specs| - 1], hash, createOk).progress)
  {
    var n := |specs| - 1;
    var init := specs[..n];
    var prev := Declared(init, hash);
    StepEffect(p, specs[n], hash, createOk);
    WellFormedSnoc(specs);
    var h := IndexName(specs[n], hash);
    ExpectedCreatesSnoc(recorded, specs, hash);
    InvariantAlgebra(recorded, prev, h);
  }

  /** The reference creates of one more declaration. */
  lemma ExpectedCreatesSnoc(recorded: seq<string>, specs: seq<IndexSpec>, hash: HashInput -> string)
    requires WellFormed(specs) && |specs| > 0
    ensures var n := |specs| - 1;
      var h := IndexName(specs[n], hash);
      ExpectedCreates(recorded, specs, hash)
      == ExpectedCreates(recorded, specs[..n], hash)
         + (if h in Elems(recorded) - Elems(Declared(specs[..n], hash)) then [] else [CallFor(specs[n], hash)])
  {
    var n := |specs| - 1;
    var d := Declared(specs, hash);
    assert d[..n] == Declared(specs[..n], hash);
  }

  /** The loop runs to the end exactly when every declaration has a key
      pattern and the store accepts every reference create call. */
  lemma {:induction false} FoldCompletes(recorded: seq<string>, specs: seq<IndexSpec>,
                                         hash: HashInput -> string, createOk: CreateCall -> bool)
    ensures Fold(recorded, specs, hash, createOk).Running?
        <==> WellFormed(specs) && AllAccepted(ExpectedCreates(recorded, specs, hash), createOk)
  {
    if |specs| > 0 {
      var init := specs[..|specs| - 1];
      FoldCompletes(recorded, init, hash, createOk);
      WellFormedSnoc(specs);
      if WellFormed(specs) {
        ExpectedAcceptedSnoc(recorded, specs, hash, createOk);
        if Fold(recorded, init, hash, createOk).Running? {
          FoldInvariant(recorded, init, hash, createOk);
          LastStepRuns(recorded, specs, hash, createOk);
        }
      }
    }
  }

  /** The reference creates of a list are accepted when those of all but
      the last declaration are and the last one's, if any, is. */
  lemma ExpectedAcceptedSnoc(recorded: seq<string>, specs: seq<IndexSpec>, hash: HashInput -> string,
                             createOk: CreateCall -> bool)
    requires WellFormed(specs) && |specs| > 0
    ensures var n := |specs| - 1;
      var h := IndexName(specs[n], hash);
      AllAccepted(ExpectedCreates(recorded, specs, hash), createOk)
      <==> && AllAccepted(ExpectedCreates(recorded, specs[..n], hash), createOk)
           && (h in Elems(recorded) - Elems(Declared(specs[..n], hash)) || createOk(CallFor(specs[n], hash)))
  {
    var n := |specs| - 1;
    var h := IndexName(specs[n], hash);
    ExpectedCreatesSnoc(recorded, specs, hash);
    var pending := h in Elems(recorded) - Elems(Declared(specs[..n], hash));
    AllAcceptedOptional(ExpectedCreates(recorded, specs[..n], hash), pending, CallFor(specs[n], hash), createOk);
  }

  /** A list followed by at most one call is accepted when the list and
      that call, if present, are. */
  lemma AllAcceptedOptional(a: seq<CreateCall>, skip: bool, call: CreateCall, createOk: CreateCall -> bool)
    ensures AllAccepted(a + (if skip then [] else [call]), createOk)
        <==> AllAccepted(a, createOk) && (skip || createOk(call))
  {
    if skip {
      assert a + (if skip then [] else [call]) == a;
    } else {
      AllAcceptedAppend(a, [call], createOk);
      assert AllAccepted([call], createOk) <==> createOk([call][0]);
    }
  }

  /** From the invariant state, the last step runs on exactly when its
      name is pending or the store accepts its create. */
  lemma LastStepRuns(recorded: seq<string>, specs: seq<IndexSpec>, hash: HashInput -> string,
                     createOk: CreateCall -> bool)
    requires |specs| > 0 && NoEmptyField(specs[|specs| - 1].fields)
    requires Fold(recorded, specs[..|specs| - 1], hash, createOk).Running?
    requires Invariant(recorded, specs[..|specs| - 1], hash, Fold(recorded, specs[..|specs| - 1], hash, createOk).progress)
    ensures var n := |specs| - 1;
      Fold(recorded, specs, hash, createOk).Running?
      <==> IndexName(specs[n], hash) in Elems(recorded) - Elems(Declared(specs[..n], hash))
           || createOk(CallFor(specs[n], hash))
  {
    var n := |specs| - 1;
    var p := Fold(recorded, specs[..n], hash, createOk).progress;
    StepRuns(p, specs[n], hash, createOk);
    InvariantAlgebra(recorded, Declared(specs[..n], hash), IndexName(specs[n], hash));
  }

  /** Whether the store accepts every call of a list. */
  predicate AllAccepted(calls: seq<CreateCall>, createOk: CreateCall -> bool) {
    forall i | 0 <= i < |calls| :: createOk(calls[i])
  }

  lemma AllAcceptedAppend(a: seq<CreateCall>, b: seq<CreateCall>, createOk: CreateCall -> bool)
    ensures AllAccepted(a + b, createOk) <==> AllAccepted(a, createOk) && AllAccepted(b, createOk)
  {
    if AllAccepted(a, createOk) && AllAccepted(b, createOk) {
      forall i | 0 <= i < |a + b| ensures createOk((a + b)[i]) {
        if i >= |a| {
          assert (a + b)[i] == b[i - |a|];
        }
      }
    }
    if AllAccepted(a + b, createOk) {
      forall i | 0 <= i < |a| ensures createOk(a[i]) {
        assert (a + b)[i] == a[i];
      }
      forall i | 0 <= i < |b| ensures createOk(b[i]) {
        assert (a + b)[|a| + i] == b[i];
      }
    }
  }

  /** A step with a key pattern runs on unless it must create and the
      store refuses. */
  lemma StepRuns(p: Progress, spec: IndexSpec, hash: HashInput -> string, createOk: CreateCall -> bool)
    requires NoEmptyField(spec.fields)
    ensures Step(p, spec, hash, createOk).Running?
        <==> IndexName(spec, hash) in p.removed || createOk(CallFor(spec, hash))
  {
  }

  /** One collection's reconciliation, starting from its recorded list. */
  function Reconcile(recorded: seq<string>, specs: seq<IndexSpec>, hash: HashInput -> string,
                     createOk: CreateCall -> bool): (r: Outcome)
    ensures r.Done? <==> WellFormed(specs) && AllAccepted(ExpectedCreates(recorded, specs, hash), createOk)
    ensures r.Done? ==> r.creates == ExpectedCreates(recorded, specs, hash)
    ensures r.Done? ==> r.drops == Minus(Dedup(recorded), Declared(specs, hash))
    ensures r.Done? ==> Elems(r.drops) == Elems(recorded) - Elems(Declared(specs, hash)) && NoDup(r.drops)
    ensures r.Done? ==> r.record == Dedup(Declared(specs, hash))
  {
    FoldCompletes(recorded, specs, hash, createOk);
    var l := Fold(recorded, specs, hash, createOk);
    if l.Stopped? then Finish(l)
    else
      FoldInvariant(recorded, specs, hash, createOk);
      MinusNoDup(Dedup(recorded), Declared(specs, hash));
      Finish(l)
  }

  /** The outcome of a finished loop: its state when it ran to the end, the
      calls issued and the reason when it stopped. */
  function Finish(l: Loop): Outcome {
    match l
    case Stopped(c, f) => Failed(c, f)
    case Running(p) => Done(p.creates, p.removed, p.added)
  }

  /** The names of a list of create calls. */
  function CreatedNames(calls: seq<CreateCall>): (r: seq<string>)
    ensures |r| == |calls|
    ensures forall i | 0 <= i < |calls| :: r[i] == calls[i].name
  {
    seq(|calls|, i requires 0 <= i < |calls| => calls[i].name)
  }

  lemma CreatedNamesAppend(a: seq<CreateCall>, b: seq<CreateCall>)
    ensures CreatedNames(a + b) == CreatedNames(a) + CreatedNames(b)
  {
  }

  /** The names created for one more declaration. */
  lemma CreatedNamesSnoc(recorded: seq<string>, specs: seq<IndexSpec>, hash: HashInput -> string)
    requires WellFormed(specs) && |specs| > 0
    ensures var n := |specs| - 1;
      var h := IndexName(specs[n], hash);
      Elems(CreatedNames(ExpectedCreates(recorded, specs, hash)))
      == Elems(CreatedNames(ExpectedCreates(recorded, specs[..n], hash)))
         + (if h in Elems(recorded) - Elems(Declared(specs[..n], hash)) then {} else {h})
  {
    var n := |specs| - 1;
    var h := IndexName(specs[n], hash);
    ExpectedCreatesSnoc(recorded, specs, hash);
    var pending := h in Elems(recorded) - Elems(Declared(specs[..n], hash));
    CreatedNamesOptional(ExpectedCreates(recorded, specs[..n], hash), pending, CallFor(specs[n], hash));
    assert CallFor(specs[n], hash).name == h;
  }

  /** The names of a list followed by at most one call. */
  lemma CreatedNamesOptional(a: seq<CreateCall>, skip: bool, call: CreateCall)
    ensures Elems(CreatedNames(a + (if skip then [] else [call])))
         == Elems(CreatedNames(a)) + (if skip then {} else {call.name})
  {
    if skip {
      assert a + (if skip then [] else [call]) == a;
    } else {
      CreatedNamesAppend(a, [call]);
      assert CreatedNames([call]) == [call.name];
      ElemsSnoc(CreatedNames(a), call.name);
    }
  }

  /** Every create is for a declared name, and every declared name that
      was not recorded is created. */
  lemma {:induction false} CreatesCoverNew(recorded: seq<string>, specs: seq<IndexSpec>, hash: HashInput -> string)
    requires WellFormed(specs)
    ensures Elems(Declared(specs, hash)) - Elems(recorded)
         <= Elems(CreatedNames(ExpectedCreates(recorded, specs, hash)))
         <= Elems(Declared(specs, hash))
  {
    if |specs| > 0 {
      var n := |specs| - 1;
      var init := specs[..n];
      WellFormedSnoc(specs);
      CreatesCoverNew(recorded, init, hash);
      CreatedNamesSnoc(recorded, specs, hash);
      var prev := Declared(init, hash);
      var h := IndexName(specs[n], hash);
      assert Elems(prev + [h]) == Elems(prev) + {h};
    }
  }

  /** A name declared twice is created again at its second declaration,
      even when it was recorded. */
  lemma DuplicateRecreated(recorded: seq<string>, specs: seq<IndexSpec>, hash: HashInput -> string, i: nat, j: nat)
    requires i < j < |specs|
    requires IndexName(specs[i], hash) == IndexName(specs[j], hash)
    ensures NeedsCreate(recorded, Declared(specs, hash), j)
  {
    var d := Declared(specs, hash);
    DeclaredAt(specs, hash, i);
    DeclaredAt(specs, hash, j);
    assert d[..j][i] == d[j];
  }

  /** With nothing to create, a run drops the reference leftovers and
      saves the declared names. */
  lemma NothingToCreate(recorded: seq<string>, specs: seq<IndexSpec>, hash: HashInput -> string,
                        createOk: CreateCall -> bool)
    requires WellFormed(specs)
    requires ExpectedCreates(recorded, specs, hash) == []
    ensures Reconcile(recorded, specs, hash, createOk)
         == Done([], Minus(Dedup(recorded), Declared(specs, hash)), Dedup(Declared(specs, hash)))
  {
  }

  /** Re-running a declaration without repeated names against its own
      record creates nothing, drops nothing and saves the same record. */
  lemma RerunIsIdempotent(specs: seq<IndexSpec>, hash: HashInput -> string, createOk: CreateCall -> bool)
    requires WellFormed(specs)
    requires NoDup(Declared(specs, hash))
    ensures Reconcile(Declared(specs, hash), specs, hash, createOk)
         == Done([], [], Declared(specs, hash))
  {
    var d := Declared(specs, hash);
    NothingNeedsCreate(d, specs, hash);
    NothingToCreate(d, specs, hash, createOk);
    DedupOfNoDup(d);
    MinusCovered(d, d);
  }

  lemma {:induction false} NothingNeedsCreate(recorded: seq<string>, specs: seq<IndexSpec>, hash: HashInput -> string)
    requires WellFormed(specs)
    requires NoDup(Declared(specs, hash))
    requires Elems(Declared(specs, hash)) <= Elems(recorded)
    ensures ExpectedCreates(recorded, specs, hash) == []
  {
    if |specs| > 0 {
      var n := |specs| - 1;
      var init := specs[..n];
      WellFormedSnoc(specs);
      ExpectedCreatesSnoc(recorded, specs, hash);
      var prev := Declared(init, hash);
      var h := IndexName(specs[n], hash);
      var d := prev + [h];
      assert d[n] == h && d[..n] == prev;
      assert h in Elems(d);
      assert h !in Elems(prev);
      assert Elems(prev) <= Elems(d);
      assert NoDup(prev);
      NothingNeedsCreate(recorded, init, hash);
    }
  }

  /** Removing one declaration from a previously reconciled list drops
      exactly that index and creates nothing. */
  lemma RemovingOneDropsIt(before: seq<IndexSpec>, removed: IndexSpec, after: seq<IndexSpec>,
                           hash: HashInput -> string, createOk: CreateCall -> bool)
    requires WellFormed(before + after)
    requires NoDup(Declared(before + [removed] + after, hash))
    ensures Reconcile(Declared(before + [removed] + after, hash), before + after, hash, createOk)
         == Done([], [IndexName(removed, hash)], Declared(before + after, hash))
  {
    var a := Declared(before, hash);
    var b := Declared(after, hash);
    var h := IndexName(removed, hash);
    DeclaredSplit(before, removed, after, hash);
    var prev := a + [h] + b;
    var now := a + b;
    NoDupRemoveOne(a, h, b);
    assert Elems(now) <= Elems(prev);
    NothingNeedsCreate(prev, before + after, hash);
    NothingToCreate(prev, before + after, hash, createOk);
    DedupOfNoDup(prev);
    DedupOfNoDup(now);
    MinusRemoveOne(a, h, b);
  }

  lemma DeclaredSplit(before: seq<IndexSpec>, removed: IndexSpec, after: seq<IndexSpec>, hash: HashInput -> string)
    ensures Declared(before + [removed] + after, hash)
         == Declared(before, hash) + [IndexName(removed, hash)] + Declared(after, hash)
    ensures Declared(before + after, hash) == Declared(before, hash) + Declared(after, hash)
  {
    DeclaredAppend(before + [removed], after, hash);
    DeclaredAppend(before, [removed], hash);
    DeclaredAppend(before, after, hash);
    assert Declared([removed], hash) == [IndexName(removed, hash)];
  }

  // ----- All collections -----

  /** What `manageIndexes` does to the database, in order. */
  datatype Effect =
    | CreateIndex(collection: string, call: CreateCall)
    | DropIndex(collection: string, name: string)
    | SaveRecord(collection: string, hashes: seq<string>)
  {
    function Collection(): string {
      match this
      case CreateIndex(c, _) => c
      case DropIndex(c, _) => c
      case SaveRecord(c, _) => c
    }
  }

  /** The effects and, when it rejects, the reason. */
  datatype Run = Run(effects: seq<Effect>, failure: Option<Failure>)

  /** `meta?.indexes ?? []`: the record loaded for a collection. */
  function Recorded(loaded: map<string, seq<string>>, collection: string): seq<string> {
    if collection in loaded then loaded[collection] else []
  }

  function Creates(collection: string, calls: seq<CreateCall>): (r: seq<Effect>)
    ensures |r| == |calls|
    ensures forall i | 0 <= i < |calls| :: r[i] == CreateIndex(collection, calls[i])
  {
    seq(|calls|, i requires 0 <= i < |calls| => CreateIndex(collection, calls[i]))
  }

  function Drops(collection: string, names: seq<string>): (r: seq<Effect>)
    ensures |r| == |names|
    ensures forall i | 0 <= i < |names| :: r[i] == DropIndex(collection, names[i])
  {
    seq(|names|, i requires 0 <= i < |names| => DropIndex(collection, names[i]))
  }

  /** The collections of a declaration, in enumeration order, each
      reconciled against its loaded record; a rejection ends the run. */
  function Collections(decl: seq<(string, seq<IndexSpec>)>, loaded: map<string, seq<string>>,
                       hash: HashInput -> string, createOk: CreateCall -> bool): Run
  {
    if |decl| == 0 then Run([], None)
    else
      var (c, specs) := decl[0];
      match Finish(Fold(Recorded(loaded, c), specs, hash, createOk))
      case Failed(issued, f) => Run(Creates(c, issued), Some(f))
      case Done(creates, drops, record) =>
        var rest := Collections(decl[1..], loaded, hash, createOk);
        Run(Creates(c, creates) + Drops(c, drops) + [SaveRecord(c, record)] + rest.effects, rest.failure)
  }

  /** `manageIndexes(decl)`: with no database selected it rejects before
      touching any index. */
  function ManageIndexes(dbSelected: bool, decl: seq<(string, seq<IndexSpec>)>, loaded: map<string, seq<string>>,
                         hash: HashInput -> string, createOk: CreateCall -> bool): (r: Run)
    ensures !dbSelected ==> r.effects == [] && r.failure == Some(NoDatabaseSelected)
  {
    if !dbSelected then Run([], Some(NoDatabaseSelected))
    else Collections(decl, loaded, hash, createOk)
  }

  /** The outcome of collection `j` of the declaration, had it been
      reached: the value `Reconcile` returns for it, taken from the loop
      directly so that `Reconcile`'s contract is not dragged along. */
  function OutcomeOf(decl: seq<(string, seq<IndexSpec>)>, j: nat, loaded: map<string, seq<string>>,
                     hash: HashInput -> string, createOk: CreateCall -> bool): Outcome
    requires j < |decl|
  {
    Finish(Fold(Recorded(loaded, decl[j].0), decl[j].1, hash, createOk))
  }

  /** The outcome a run uses for collection `j` is `Reconcile` of that
      collection against its loaded record, so `Reconcile`'s contract
      describes it. */
  lemma OutcomeIsReconcile(decl: seq<(string, seq<IndexSpec>)>, j: nat, loaded: map<string, seq<string>>,
                           hash: HashInput -> string, createOk: CreateCall -> bool)
    requires j < |decl|
    ensures OutcomeOf(decl, j, loaded, hash, createOk)
         == Reconcile(Recorded(loaded, decl[j].0), decl[j].1, hash, createOk)
  {
  }

  /** How many leading collections complete. */
  function Completed(decl: seq<(string, seq<IndexSpec>)>, loaded: map<string, seq<string>>,
                     hash: HashInput -> string, createOk: CreateCall -> bool): (k: nat)
    ensures k <= |decl|
    ensures forall j | 0 <= j < k :: OutcomeOf(decl, j, loaded, hash, createOk).Done?
  {
    if |decl| == 0 || OutcomeOf(decl, 0, loaded, hash, createOk).Failed? then 0
    else
      var k' := Completed(decl[1..], loaded, hash, createOk);
      assert forall j | 1 <= j <= k' :: OutcomeOf(decl, j, loaded, hash, createOk).Done? by {
        forall j | 1 <= j <= k' ensures OutcomeOf(decl, j, loaded, hash, createOk).Done? {
          assert decl[1..][j - 1] == decl[j];
          assert OutcomeOf(decl, j, loaded, hash, createOk) == OutcomeOf(decl[1..], j - 1, loaded, hash, createOk);
        }
      }
      1 + k'
  }

  /** The records a run saves, in order. */
  function Saves(effects: seq<Effect>): (r: seq<(string, seq<string>)>)
    ensures |r| <= |effects|
  {
    if |effects| == 0 then []
    else (if effects[0].SaveRecord? then [(effects[0].collection, effects[0].hashes)] else []) + Saves(effects[1..])
  }

  lemma {:induction false} SavesAppend(a: seq<Effect>, b: seq<Effect>)
    ensures Saves(a + b) == Saves(a) + Saves(b)
  {
    if |a| > 0 {
      SavesAppend(a[1..], b);
      assert (a + b)[1..] == a[1..] + b;
    } else {
      assert a + b == b;
    }
  }

  lemma {:induction false} NoSavesAmong(e: seq<Effect>)
    requires forall i | 0 <= i < |e| :: !e[i].SaveRecord?
    ensures Saves(e) == []
  {
    if |e| > 0 {
      NoSavesAmong(e[1..]);
    }
  }

  /** The records saved by one completed collection and those after it. */
  lemma SavesOfCompleted(c: string, creates: seq<CreateCall>, drops: seq<string>, record: seq<string>, tail: seq<Effect>)
    ensures Saves(Creates(c, creates) + Drops(c, drops) + [SaveRecord(c, record)] + tail)
         == [(c, record)] + Saves(tail)
  {
    var head := Creates(c, creates) + Drops(c, drops);
    NoSavesAmong(head);
    SavesAppend(head + [SaveRecord(c, record)], tail);
    SavesAppend(head, [SaveRecord(c, record)]);
    assert Saves([SaveRecord(c, record)]) == [(c, record)];
  }

  /** A run rejects exactly when some collection fails, and then with the
      first failing collection's reason. */
  lemma {:induction false} RunFailsAtFirstFailure(decl: seq<(string, seq<IndexSpec>)>, loaded: map<string, seq<string>>,
                                                  hash: HashInput -> string, createOk: CreateCall -> bool)
    ensures var k := Completed(decl, loaded, hash, createOk);
      var r := Collections(decl, loaded, hash, createOk);
      && (r.failure.None? <==> k == |decl|)
      && (k < |decl| ==> OutcomeOf(decl, k, loaded, hash, createOk).Failed?
                         && r.failure == Some(OutcomeOf(decl, k, loaded, hash, createOk).failure))
  {
    if |decl| > 0 && OutcomeOf(decl, 0, loaded, hash, createOk).Done? {
      RunFailsAtFirstFailure(decl[1..], loaded, hash, createOk);
      var k' := Completed(decl[1..], loaded, hash, createOk);
      if k' < |decl| - 1 {
        assert decl[1..][k'] == decl[k' + 1];
        assert OutcomeOf(decl, k' + 1, loaded, hash, createOk) == OutcomeOf(decl[1..], k', loaded, hash, createOk);
      }
    }
  }

  /** A run saves a record for each collection before the first failing
      one, with that collection's reconciled list, in declaration order,
      and no other record. */
  lemma {:induction false} RunSavesCompletedPrefix(decl: seq<(string, seq<IndexSpec>)>, loaded: map<string, seq<string>>,
                                                   hash: HashInput -> string, createOk: CreateCall -> bool)
    ensures var k := Completed(decl, loaded, hash, createOk);
      var saves := Saves(Collections(decl, loaded, hash, createOk).effects);
      && |saves| == k
      && forall j | 0 <= j < k :: saves[j] == (decl[j].0, OutcomeOf(decl, j, loaded, hash, createOk).record)
  {
    if |decl| > 0 {
      var c := decl[0].0;
      var out := OutcomeOf(decl, 0, loaded, hash, createOk);
      CollectionsStep(decl, loaded, hash, createOk);
      if out.Failed? {
        NoSavesAmong(Creates(c, out.issued));
      } else {
        RunSavesCompletedPrefix(decl[1..], loaded, hash, createOk);
        var tail := Saves(Collections(decl[1..], loaded, hash, createOk).effects);
        SavesOfCompleted(c, out.creates, out.drops, out.record, Collections(decl[1..], loaded, hash, createOk).effects);
        var saves := [(c, out.record)] + tail;
        var k' := Completed(decl[1..], loaded, hash, createOk);
        forall j | 1 <= j < 1 + k'
          ensures saves[j] == (decl[j].0, OutcomeOf(decl, j, loaded, hash, createOk).record)
        {
          OutcomeShift(decl, j, loaded, hash, createOk);
        }
      }
    }
  }

  /** One collection of a run: a failing collection ends the run with its
      issued creates; a completed one contributes its creates, drops and
      save, and the run goes on with the rest. */
  lemma CollectionsStep(decl: seq<(string, seq<IndexSpec>)>, loaded: map<string, seq<string>>,
                        hash: HashInput -> string, createOk: CreateCall -> bool)
    requires |decl| > 0
    ensures var out := OutcomeOf(decl, 0, loaded, hash, createOk);
      var c := decl[0].0;
      out.Failed? ==>
        && Collections(decl, loaded, hash, createOk) == Run(Creates(c, out.issued), Some(out.failure))
        && Completed(decl, loaded, hash, createOk) == 0
    ensures var out := OutcomeOf(decl, 0, loaded, hash, createOk);
      var c := decl[0].0;
      var rest := Collections(decl[1..], loaded, hash, createOk);
      out.Done? ==>
        && Collections(decl, loaded, hash, createOk)
           == Run(Creates(c, out.creates) + Drops(c, out.drops) + [SaveRecord(c, out.record)] + rest.effects, rest.failure)
        && Completed(decl, loaded, hash, createOk) == 1 + Completed(decl[1..], loaded, hash, createOk)
  {
  }

  /** Collection `j + 1` of a declaration is collection `j` of its tail. */
  lemma OutcomeShift(decl: seq<(string, seq<IndexSpec>)>, j: nat, loaded: map<string, seq<string>>,
                     hash: HashInput -> string, createOk: CreateCall -> bool)
    requires 1 <= j < |decl|
    ensures OutcomeOf(decl, j, loaded, hash, createOk) == OutcomeOf(decl[1..], j - 1, loaded, hash, createOk)
  {
    assert decl[1..][j - 1] == decl[j];
  }

  /** Every effect of a run belongs to a collection no later than the first
      failing one: later collections are not touched. */
  lemma {:induction false} RunStopsAtFailure(decl: seq<(string, seq<IndexSpec>)>, loaded: map<string, seq<string>>,
                                             hash: HashInput -> string, createOk: CreateCall -> bool)
    ensures var k := Completed(decl, loaded, hash, createOk);
      forall e | e in Collections(decl, loaded, hash, createOk).effects ::
        exists j | 0 <= j <= k && j < |decl| :: e.Collection() == decl[j].0
  {
    if |decl| > 0 {
      var c := decl[0].0;
      var k := Completed(decl, loaded, hash, createOk);
      var r := Collections(decl, loaded, hash, createOk);
      match OutcomeOf(decl, 0, loaded, hash, createOk)
      case Failed(issued, f) =>
        forall e | e in r.effects ensures e.Collection() == decl[0].0 {
        }
      case Done(creates, drops, record) =>
        RunStopsAtFailure(decl[1..], loaded, hash, createOk);
        var tail := Collections(decl[1..], loaded, hash, createOk);
        assert r.effects == Creates(c, creates) + Drops(c, drops) + [SaveRecord(c, record)] + tail.effects;
        forall e | e in r.effects
          ensures exists j | 0 <= j <= k && j < |decl| :: e.Collection() == decl[j].0
        {
          if e in tail.effects {
            var j :| 0 <= j <= k - 1 && j < |decl| - 1 && e.Collection() == decl[1..][j].0;
            assert e.Collection() == decl[j + 1].0;
          } else {
            assert e.Collection() == decl[0].0;
          }
        }
    }
  }
}

=== FILE: marshal.dfy ===
/** The default marshaller of src/marshal.ts: an ignore unit for ObjectId and
    Date followed by the identifier-renaming unit, over the chain mechanics
    of the marshalling library.

    The library itself is not part of this model. Its behaviour is taken as
    an assumption: units are tried in order and the first that does not pass
    decides; a value no unit claims is rebuilt structurally, arrays element
    by element and plain objects property by property, and every other value
    is returned unchanged. */
module Marshal {
  import opened Values
  import Util

  /** `marshal` (towards the store) or `unmarshal` (back to the caller). */
  datatype Direction = Outbound | Inbound {
    function Flip(): Direction {
      if Outbound? then Inbound else Outbound
    }
  }

  /** The key the renaming unit looks for in a given direction. */
  function SourceKey(d: Direction): string {
    if d.Outbound? then "id" else "_id"
  }

  /** The key the renaming unit writes in a given direction. */
  function TargetKey(d: Direction): string {
    if d.Outbound? then "_id" else "id"
  }

  lemma KeysSwapOnFlip(d: Direction)
    ensures SourceKey(d.Flip()) == TargetKey(d) && TargetKey(d.Flip()) == SourceKey(d)
    ensures SourceKey(d) != TargetKey(d)
  {
  }

  /** `IgnoreMarshalUnit(ObjectId, Date)`: claimed, returned as is, and not
      looked into. */
  predicate Ignored(v: Value) {
    v.ObjId? || v.DateV?
  }

  /** The renaming unit claims an object whose source key holds an ObjectId. */
  predicate Renames(d: Direction, v: Value) {
    v.HasObjIdAt(SourceKey(d))
  }

  /** `{ [target]: v[source], ...omit(v, source) }`: the spread comes last, so
      an existing target key keeps its own value. */
  function Renamed(d: Direction, fields: map<string, Value>): (r: map<string, Value>)
    requires SourceKey(d) in fields
    ensures r.Keys == fields.Keys - {SourceKey(d)} + {TargetKey(d)}
    ensures SourceKey(d) !in r
    ensures r[TargetKey(d)] == if TargetKey(d) in fields then fields[TargetKey(d)] else fields[SourceKey(d)]
    ensures forall k | k in r && k != TargetKey(d) :: r[k] == fields[k]

  {
    map[TargetKey(d) := fields[SourceKey(d)]] + Util.Omit(fields, [SourceKey(d)])
  }

  /** One run of the default marshaller in direction `d`. When the renaming
      unit claims a value, the renamed object is passed back through the
      whole marshaller; since it no longer has the source key, that pass is
      the structural one written out here (see PassbackIsFullMarshal). */
  function Run(d: Direction, v: Value): Value
  {
    if Ignored(v) then v
    else if Renames(d, v) then
      var r := Renamed(d, v.fields);
      Obj(map k | k in r :: Run(d, r[k]))
    else match v
      case Arr(items) => Arr(seq(|items|, i requires 0 <= i < |items| => Run(d, items[i])))
      case Obj(m) => Obj(map k | k in m :: Run(d, m[k]))
      case _ => v
  }

  /** ObjectId and Date come out of either direction untouched. */
  lemma IgnoredUnchanged(d: Direction, v: Value)
    requires Ignored(v)
    ensures Run(d, v) == v
  {
  }

  /** The renaming unit's morph result is the whole marshaller applied to
      the renamed object, so nested objects are processed too. */
  lemma PassbackIsFullMarshal(d: Direction, v: Value)
    requires Renames(d, v)
    ensures Run(d, v) == Run(d, Obj(Renamed(d, v.fields)))
  {
  }

  /** What the renaming unit produces in direction `d`: a plain object with
      the target key and every other property but the source key, each value
      marshalled; a target key already present wins over the renamed one. */
  lemma RenameStep(d: Direction, v: Value)
    requires Renames(d, v)
    ensures var r := Run(d, v);
      && r.Obj?
      && r.fields.Keys == v.fields.Keys - {SourceKey(d)} + {TargetKey(d)}
      && r.fields[TargetKey(d)] == (if TargetKey(d) in v.fields then Run(d, v.fields[TargetKey(d)]) else v.fields[SourceKey(d)])
      && forall k | k in r.fields && k != TargetKey(d) :: r.fields[k] == Run(d, v.fields[k])
  {
    var rn := Renamed(d, v.fields);
    var out := map k | k in rn :: Run(d, rn[k]);
    assert Run(d, v) == Obj(out);
  }

  /** Outbound renaming: an object whose `id` is an ObjectId becomes a plain
      object with `_id` and every other property but `id`; an `_id` already
      present wins over the renamed one. */
  lemma OutboundRenamesId(v: Value)
    requires v.HasObjIdAt("id")
    ensures var r := Run(Outbound, v);
      && r.Obj?
      && r.fields.Keys == v.fields.Keys - {"id"} + {"_id"}
      && r.fields["_id"] == (if "_id" in v.fields then Run(Outbound, v.fields["_id"]) else v.fields["id"])
      && forall k | k in r.fields && k != "_id" :: r.fields[k] == Run(Outbound, v.fields[k])
  {
    RenameStep(Outbound, v);
  }

  /** Inbound renaming, the mirror image: `_id` becomes `id`, and an `id`
      already present wins. */
  lemma InboundRenamesId(v: Value)
    requires v.HasObjIdAt("_id")
    ensures var r := Run(Inbound, v);
      && r.Obj?
      && r.fields.Keys == v.fields.Keys - {"_id"} + {"id"}
      && r.fields["id"] == (if "id" in v.fields then Run(Inbound, v.fields["id"]) else v.fields["_id"])
      && forall k | k in r.fields && k != "id" :: r.fields[k] == Run(Inbound, v.fields[k])
  {
    RenameStep(Inbound, v);
  }

  /** A plain object the renaming unit does not claim keeps its keys, and
      every property value is marshalled on its own. */
  lemma UnclaimedObjectStructural(d: Direction, m: map<string, Value>)
    requires !Renames(d, Obj(m))
    ensures var r := Run(d, Obj(m));
      && r.Obj?
      && r.fields.Keys == m.Keys
      && forall k | k in m :: r.fields[k] == Run(d, m[k])
  {
  }

  /** Documents that survive a trip in direction `d` and back: no object
      already uses the key the trip would write, and no class instance is
      claimed by the renaming unit in either direction. */
  predicate Restorable(d: Direction, v: Value) {
    match v
    case Arr(items) => forall i | 0 <= i < |items| :: Restorable(d, items[i])
    case Obj(m) => TargetKey(d) !in m && forall k | k in m :: Restorable(d, m[k])
    case Instance(_, m) => TargetKey(d) !in m && !Renames(d, v)
    case _ => true
  }

  /** Round trip: marshalling one way and then the other gives back the
      original document, in both orders. */
  lemma {:induction false} RoundTrip(d: Direction, v: Value)
    requires Restorable(d, v)
    ensures Run(d.Flip(), Run(d, v)) == v
    decreases v, 1
  {
    if Ignored(v) {
    } else if Renames(d, v) {
      RoundTripRenamed(d, v.fields);
    } else {
      match v
      case Arr(items) => RoundTripArray(d, items);
      case Obj(m) => RoundTripPlain(d, m);
      case _ =>
    }
  }

  lemma {:induction false} RoundTripRenamed(d: Direction, m: map<string, Value>)
    requires Renames(d, Obj(m)) && Restorable(d, Obj(m))
    ensures Run(d.Flip(), Run(d, Obj(m))) == Obj(m)
    decreases Obj(m), 0
  {
    RenameThereAndBack(d, m);
    var res := Run(d.Flip(), Run(d, Obj(m))).fields;
    forall k | k in m && k != SourceKey(d)
      ensures res[k] == m[k]
    {
      RoundTrip(d, m[k]);
    }
    assert res == m;
  }

  /** Renaming in direction `d` and back again restores the key set and the
      renamed identifier, and leaves every other property marshalled there
      and back. */
  lemma RenameThereAndBack(d: Direction, m: map<string, Value>)
    requires Renames(d, Obj(m)) && TargetKey(d) !in m
    ensures var res := Run(d.Flip(), Run(d, Obj(m)));
      && res.Obj?
      && res.fields.Keys == m.Keys
      && res.fields[SourceKey(d)] == m[SourceKey(d)]
      && forall k | k in m && k != SourceKey(d) :: res.fields[k] == Run(d.Flip(), Run(d, m[k]))
  {
    KeysSwapOnFlip(d);
    var s, t, f := SourceKey(d), TargetKey(d), d.Flip();
    RenameFresh(d, m);
    var out := Run(d, Obj(m)).fields;
    RenameStep(f, Obj(out));
    var res := Run(f, Obj(out)).fields;
    forall k | k in m && k != s
      ensures res[k] == Run(f, Run(d, m[k]))
    {
      assert res[k] == Run(f, out[k]);
    }
  }

  /** Renaming an object that does not yet use the target key: the result
      carries the identifier under the target key and is claimed by the
      renaming unit of the opposite direction. */
  lemma RenameFresh(d: Direction, m: map<string, Value>)
    requires Renames(d, Obj(m)) && TargetKey(d) !in m
    ensures var out := Run(d, Obj(m));
      && out.Obj?
      && out.fields.Keys == m.Keys - {SourceKey(d)} + {TargetKey(d)}
      && out.fields[TargetKey(d)] == m[SourceKey(d)]
      && Renames(d.Flip(), out)
      && forall k | k in m && k != SourceKey(d) :: out.fields[k] == Run(d, m[k])
  {
    KeysSwapOnFlip(d);
    RenameStep(d, Obj(m));
  }

  lemma {:induction false} RoundTripArray(d: Direction, items: seq<Value>)
    requires Restorable(d, Arr(items))
    ensures Run(d.Flip(), Run(d, Arr(items))) == Arr(items)
    decreases Arr(items), 0
  {
    var out := seq(|items|, i requires 0 <= i < |items| => Run(d, items[i]));
    assert Run(d, Arr(items)) == Arr(out);
    forall i | 0 <= i < |items|
      ensures Run(d.Flip(), out[i]) == items[i]
    {
      RoundTrip(d, items[i]);
    }
  }

  lemma {:induction false} RoundTripPlain(d: Direction, m: map<string, Value>)
    requires !Renames(d, Obj(m)) && Restorable(d, Obj(m))
    ensures Run(d.Flip(), Run(d, Obj(m))) == Obj(m)
    decreases Obj(m), 0
  {
    KeysSwapOnFlip(d);
    UnclaimedObjectStructural(d, m);
    var out := Run(d, Obj(m)).fields;
    assert !Renames(d.Flip(), Obj(out));
    UnclaimedObjectStructural(d.Flip(), out);
    var back := Run(d.Flip(), Obj(out)).fields;
    forall k | k in m
      ensures back[k] == m[k]
    {
      RoundTrip(d, m[k]);
    }
    assert back == m;
  }

  /** The outbound-then-inbound trip the identifier test exercises: a plain
      object with an ObjectId `id`, no `_id` key and restorable property
      values comes back unchanged. */
  lemma IdDocumentRoundTrip(m: map<string, Value>)
    requires "id" in m && m["id"].ObjId? && "_id" !in m
    requires forall k | k in m :: Restorable(Outbound, m[k])
    ensures Run(Inbound, Run(Outbound, Obj(m))) == Obj(m)
  {
    RoundTrip(Outbound, Obj(m));
  }

  /** `{ id: <ObjectId>, foo: 'bar' }` is stored as `{ _id: <ObjectId>, foo: 'bar' }`
      and read back as the original; a Date inside a document survives too. */
  lemma IdentifierExample(n: nat, t: int)
    ensures Run(Outbound, Obj(map["id" := ObjId(n), "foo" := Str("bar")]))
         == Obj(map["_id" := ObjId(n), "foo" := Str("bar")])
    ensures Run(Inbound, Obj(map["_id" := ObjId(n), "foo" := Str("bar"), "createdAt" := DateV(t)]))
         == Obj(map["id" := ObjId(n), "foo" := Str("bar"), "createdAt" := DateV(t)])
  {
    OutboundExample(n);
    InboundExample(n, t);
  }

  /** Scalars, ObjectIds and Dates come out of either direction unchanged. */
  lemma LeafUnchanged(d: Direction, v: Value)
    requires !v.IsObject() || Ignored(v)
    ensures Run(d, v) == v
  {
  }

  lemma OutboundExample(n: nat)
    ensures Run(Outbound, Obj(map["id" := ObjId(n), "foo" := Str("bar")]))
         == Obj(map["_id" := ObjId(n), "foo" := Str("bar")])
  {
    var doc := map["id" := ObjId(n), "foo" := Str("bar")];
    RenameStep(Outbound, Obj(doc));
    LeafUnchanged(Outbound, Str("bar"));
    var out := Run(Outbound, Obj(doc)).fields;
    assert out.Keys == {"_id", "foo"};
    assert out == map["_id" := ObjId(n), "foo" := Str("bar")];
  }

  lemma InboundExample(n: nat, t: int)
    ensures Run(Inbound, Obj(map["_id" := ObjId(n), "foo" := Str("bar"), "createdAt" := DateV(t)]))
         == Obj(map["id" := ObjId(n), "foo" := Str("bar"), "createdAt" := DateV(t)])
  {
    var stored := map["_id" := ObjId(n), "foo" := Str("bar"), "createdAt" := DateV(t)];
    RenameStep(Inbound, Obj(stored));
    LeafUnchanged(Inbound, Str("bar"));
    LeafUnchanged(Inbound, DateV(t));
    var out := Run(Inbound, Obj(stored)).fields;
    assert out.Keys == {"id", "foo", "createdAt"};
    assert out == map["id" := ObjId(n), "foo" := Str("bar"), "createdAt" := DateV(t)];
  }

  /** What a marshal unit decides for one value. */
  datatype UnitResult = Pass | Morph(value: Value) | Throws(error: string)

  /** The renaming unit as src/marshal.ts writes it: `omit` is called but
      never imported into that module, so a claimed value raises a
      ReferenceError instead of being renamed. */
  function RenamerAsWritten(d: Direction, v: Value): (r: UnitResult)
    ensures r.Throws? <==> Renames(d, v)
    ensures !r.Morph?
  {
    if Renames(d, v) then Throws("ReferenceError: omit is not defined") else Pass
  }

  /** The renaming unit with `omit` bound to the helper of src/util.ts, the
      behaviour the rest of this model uses. */
  function Renamer(d: Direction, v: Value): (r: UnitResult)
    ensures r.Pass? <==> !Renames(d, v)
    ensures !r.Throws?
    ensures r.Morph? ==> r.value == Run(d, v)
  {
    if Renames(d, v) then Morph(Run(d, Obj(Renamed(d, v.fields)))) else Pass
  }

  /** The document of the identifier test makes the unit as written raise,
      where the bound unit produces the stored form. */
  lemma UnboundOmitRaises(n: nat)
    ensures RenamerAsWritten(Outbound, Obj(map["id" := ObjId(n), "foo" := Str("bar")])).Throws?
    ensures Renamer(Outbound, Obj(map["id" := ObjId(n), "foo" := Str("bar")]))
         == Morph(Obj(map["_id" := ObjId(n), "foo" := Str("bar")]))
  {
    OutboundExample(n);
  }
}

=== FILE: query.dfy ===
/** The fluent query builder of src/query.ts (`createQuery`).

    The builder keeps one map from field name to what is stored for it, plus
    an optional projection. Each builder method is a function from the old
    state to the new one; chaining calls is composing these functions. The
    host's `marshal` step is a parameter of rendering. */
module Query {
  import opened Values
  import opened Seqs
  import Marshal

  /** A projection flag: 1 includes a field, 0 excludes it. */
  type Flag = x: int | x == 0 || x == 1

  /** What the builder stores under one key of its query map: an operator
      map for a field, the sub-query list of a combinator, or the negated
      sub-query. */
  datatype Clause =
    | Ops(ops: map<string, Value>)
    | Combined(subs: seq<Builder>)
    | Negated(sub: Builder)

  datatype Builder = Builder(clauses: map<string, Clause>, projection: Option<map<string, Flag>>)

  /** The generated comparison methods. */
  datatype Comparison =
    | Exact | Equals | NotEquals
    | LessThan | LessThanOrEqual | GreaterThan | GreaterThanOrEqual
    | In | NotIn

  /** The operator key each comparison method writes. */
  function Keyword(c: Comparison): string {
    match c
    case Exact => "$eq"
    case Equals => "$eq"
    case NotEquals => "$ne"
    case LessThan => "$lt"
    case LessThanOrEqual => "$lte"
    case GreaterThan => "$gt"
    case GreaterThanOrEqual => "$gte"
    case In => "$in"
    case NotIn => "$nin"
  }

  /** The generated combinator methods `all`, `any` and `xor`. */
  datatype Logical = All | Any | Xor

  function LogicalKeyword(l: Logical): string {
    match l
    case All => "$and"
    case Any => "$or"
    case Xor => "$xor"
  }

  const NotKey := "$not"

  /** No comparison writes a combinator or negation key, and the combinator
      keys are distinct from each other and from the negation key. */
  lemma KeywordsDistinct(c: Comparison, l: Logical, l': Logical)
    ensures Keyword(c) != LogicalKeyword(l) && Keyword(c) != NotKey && LogicalKeyword(l) != NotKey
    ensures l != l' ==> LogicalKeyword(l) != LogicalKeyword(l')
  {
  }

  /** A new builder: an empty query map and no projection. `sub()` returns
      one of these, whatever the state of the builder it is called on. */
  function Create(): (b: Builder)
    ensures |b.clauses| == 0 && b.projection.None?
  {
    Builder(map[], None)
  }

  function Sub(b: Builder): (s: Builder)
    ensures |s.clauses| == 0 && s.projection.None?
  {
    Create()
  }

  /** The operator map currently stored for `field`, empty when there is
      none. */
  function OpsOf(b: Builder, field: string): map<string, Value> {
    if field in b.clauses && b.clauses[field].Ops? then b.clauses[field].ops else map[]
  }

  /** Whether `field` may receive operators: it holds an operator map or
      nothing yet. Only the keys of a combinator or of the negation can hold
      anything else. */
  predicate Assignable(b: Builder, field: string) {
    field !in b.clauses || b.clauses[field].Ops?
  }

  /** `is(field, fragment)`: `Object.assign(query[field] ?? {}, fragment)`.
      The fragment's keys overwrite, the field's other operators stay, other
      keys and the projection are untouched. On a key that holds a
      combinator list or a negated sub-query, the assigned properties land on
      that array or builder object and never reach the rendered filter, so
      the state is left as it was. */
  function Is(b: Builder, field: string, fragment: map<string, Value>): (r: Builder)
    ensures r.projection == b.projection
    ensures Assignable(b, field) ==>
      && r.clauses.Keys == b.clauses.Keys + {field}
      && r.clauses[field].Ops?
      && OpsOf(r, field).Keys == OpsOf(b, field).Keys + fragment.Keys
      && (forall k | k in fragment :: OpsOf(r, field)[k] == fragment[k])
      && (forall k | k in OpsOf(b, field) && k !in fragment :: OpsOf(r, field)[k] == OpsOf(b, field)[k])
    ensures !Assignable(b, field) ==> r == b
    ensures forall k | k in b.clauses && k != field :: k in r.clauses && r.clauses[k] == b.clauses[k]
  {
    if Assignable(b, field) then
      b.(clauses := b.clauses[field := Ops(OpsOf(b, field) + fragment)])
    else
      b
  }

  /** A generated comparison method: `is(field, { [keyword]: value })`. */
  function Compare(b: Builder, c: Comparison, field: string, value: Value): (r: Builder)
    ensures Assignable(b, field) ==> OpsOf(r, field) == OpsOf(b, field)[Keyword(c) := value]
    ensures Assignable(b, field) ==> r.clauses.Keys == b.clauses.Keys + {field}
    ensures !Assignable(b, field) ==> r == b
    ensures forall k | k in b.clauses && k != field :: k in r.clauses && r.clauses[k] == b.clauses[k]
    ensures r.projection == b.projection
  {
    Is(b, field, map[Keyword(c) := value])
  }

  /** `has(field, present = true)`: `is(field, { $exists: present })`;
      `None` stands for the omitted argument. */
  function Has(b: Builder, field: string, present: Option<bool>): (r: Builder)
    ensures Assignable(b, field) ==> OpsOf(r, field) == OpsOf(b, field)["$exists" := Bool(present != Some(false))]
    ensures Assignable(b, field) ==> r.clauses.Keys == b.clauses.Keys + {field}
    ensures !Assignable(b, field) ==> r == b
    ensures forall k | k in b.clauses && k != field :: k in r.clauses && r.clauses[k] == b.clauses[k]
    ensures r.projection == b.projection
  {
    Is(b, field, map["$exists" := Bool(present.GetOr(true))])
  }

  /** `all`, `any`, `xor`: the given list is stored under the combinator's
      key, replacing what an earlier call of the same combinator stored. */
  function Combine(b: Builder, l: Logical, subs: seq<Builder>): (r: Builder)
    ensures r.clauses.Keys == b.clauses.Keys + {LogicalKeyword(l)}
    ensures r.clauses[LogicalKeyword(l)] == Combined(subs)
    ensures forall k | k in b.clauses && k != LogicalKeyword(l) :: r.clauses[k] == b.clauses[k]
    ensures r.projection == b.projection
  {
    b.(clauses := b.clauses[LogicalKeyword(l) := Combined(subs)])
  }

  /** `not(sub)`: stores the sub-query under `$not`, replacing any earlier
      negation. */
  function Not(b: Builder, sub: Builder): (r: Builder)
    ensures r.clauses.Keys == b.clauses.Keys + {NotKey}
    ensures r.clauses[NotKey] == Negated(sub)
    ensures forall k | k in b.clauses && k != NotKey :: r.clauses[k] == b.clauses[k]
    ensures r.projection == b.projection
  {
    b.(clauses := b.clauses[NotKey := Negated(sub)])
  }

  /** `extract(...fields)`: the projection becomes exactly `{ f: 1 }` for
      the given fields. */
  function Extract(b: Builder, fields: seq<string>): (r: Builder)
    ensures r.clauses == b.clauses
    ensures r.projection.Some?
    ensures r.projection.value.Keys == Elems(fields)
    ensures forall f | f in r.projection.value :: r.projection.value[f] == 1
  {
    b.(projection := Some(map f | f in fields :: 1))
  }

  /** `exclude(...fields)`: no fields resets the projection to undefined;
      otherwise it becomes exactly `{ f: 0 }` for the given fields. */
  function Exclude(b: Builder, fields: seq<string>): (r: Builder)
    ensures r.clauses == b.clauses
    ensures |fields| == 0 <==> r.projection.None?
    ensures r.projection.Some? ==> r.projection.value.Keys == Elems(fields)
    ensures r.projection.Some? ==> forall f | f in r.projection.value :: r.projection.value[f] == 0
  {
    if |fields| == 0 then b.(projection := None)
    else b.(projection := Some(map f | f in fields :: 0))
  }

  function GetProjection(b: Builder): Option<map<string, Flag>> {
    b.projection
  }

  /** `toQuery()`: one entry per key of the query map; a negated sub-query
      renders through its own `toQuery`, every other stored value through the
      host's `marshal`. */
  function ToQuery(b: Builder, marshal: Clause -> Value): (r: map<string, Value>)
    ensures r.Keys == b.clauses.Keys
  {
    map k | k in b.clauses :: Render(b.clauses[k], marshal)
  }

  function Render(c: Clause, marshal: Clause -> Value): (r: Value)
    ensures c.Negated? ==> r.Obj? && r.fields.Keys == c.sub.clauses.Keys
    ensures !c.Negated? ==> r == marshal(c)
  {
    match c
    case Negated(s) => Obj(ToQuery(s, marshal))
    case _ => marshal(c)
  }

  /** A new builder renders to `{}` and has no projection. */
  lemma FreshQueryIsEmpty(marshal: Clause -> Value)
    ensures ToQuery(Create(), marshal) == map[]
    ensures GetProjection(Create()).None?
  {
  }

  /** Two assignments to the same field merge rather than overwrite: doing
      them one after the other is one assignment of the merged fragment. */
  lemma IsMerges(b: Builder, field: string, m1: map<string, Value>, m2: map<string, Value>)
    ensures Is(Is(b, field, m1), field, m2) == Is(b, field, m1 + m2)
  {
    if Assignable(b, field) {
      var r1 := Is(b, field, m1);
      assert OpsOf(r1, field) == OpsOf(b, field) + m1;
      assert OpsOf(b, field) + m1 + m2 == OpsOf(b, field) + (m1 + m2);
    }
  }

  /** Assignments to different fields do not interfere. */
  lemma IsCommutesAcrossFields(b: Builder, f1: string, m1: map<string, Value>, f2: string, m2: map<string, Value>)
    requires f1 != f2
    ensures Is(Is(b, f1, m1), f2, m2) == Is(Is(b, f2, m2), f1, m1)
  {
    var r1 := Is(b, f1, m1);
    var r2 := Is(b, f2, m2);
    assert OpsOf(r1, f2) == OpsOf(b, f2) && Assignable(r1, f2) == Assignable(b, f2);
    assert OpsOf(r2, f1) == OpsOf(b, f1) && Assignable(r2, f1) == Assignable(b, f1);
    if Assignable(b, f1) && Assignable(b, f2) {
      var c1, c2 := Ops(OpsOf(b, f1) + m1), Ops(OpsOf(b, f2) + m2);
      assert b.clauses[f1 := c1][f2 := c2] == b.clauses[f2 := c2][f1 := c1];
    }
  }

  /** `exact` and `equals` are the same method; `has(f)` is `has(f, true)`. */
  lemma Aliases(b: Builder, field: string, value: Value)
    ensures Compare(b, Exact, field, value) == Compare(b, Equals, field, value)
    ensures Has(b, field, None) == Has(b, field, Some(true))
  {
  }

  /** A later call of the same combinator replaces the earlier list; the
      three combinators and the negation each keep their own entry. */
  lemma CombineReplaces(b: Builder, l: Logical, s1: seq<Builder>, s2: seq<Builder>)
    ensures Combine(Combine(b, l, s1), l, s2) == Combine(b, l, s2)
  {
  }

  lemma CombinatorsIndependent(b: Builder, l: Logical, l': Logical, s: seq<Builder>, s': seq<Builder>, n: Builder)
    requires l != l'
    ensures Combine(Combine(b, l, s), l', s').clauses[LogicalKeyword(l)] == Combined(s)
    ensures Not(Combine(b, l, s), n).clauses[LogicalKeyword(l)] == Combined(s)
    ensures Combine(Not(b, n), l, s).clauses[NotKey] == Negated(n)
  {
    KeywordsDistinct(Exact, l, l');
  }

  lemma NotReplaces(b: Builder, n1: Builder, n2: Builder)
    ensures Not(Not(b, n1), n2) == Not(b, n2)
  {
  }

  /** Inclusion and exclusion never mix, and `exclude()` with no fields
      clears whatever projection was set. */
  predicate Uniform(p: Option<map<string, Flag>>) {
    p.Some? ==> (forall f | f in p.value :: p.value[f] == 1) || (forall f | f in p.value :: p.value[f] == 0)
  }

  lemma ProjectionNeverMixes(b: Builder, fields: seq<string>, more: seq<string>)
    ensures Uniform(Extract(b, fields).projection)
    ensures Uniform(Exclude(b, fields).projection)
    ensures Exclude(Extract(b, fields), []).projection.None?
    ensures Extract(Exclude(b, fields), more).projection == Extract(b, more).projection
  {
  }

  /** Rendering after a comparison: the field renders as the host's
      marshalling of its merged operator map, every other key renders as
      before. */
  lemma RenderAfterCompare(b: Builder, c: Comparison, field: string, value: Value, marshal: Clause -> Value)
    requires Assignable(b, field)
    ensures var q := ToQuery(Compare(b, c, field, value), marshal);
      && q.Keys == ToQuery(b, marshal).Keys + {field}
      && q[field] == marshal(Ops(OpsOf(b, field)[Keyword(c) := value]))
      && forall k | k in b.clauses && k != field :: q[k] == ToQuery(b, marshal)[k]
  {
  }

  /** A negated sub-query renders as that sub-query's own filter, not
      through the host's marshal. */
  lemma RenderNegation(b: Builder, sub: Builder, marshal: Clause -> Value)
    ensures ToQuery(Not(b, sub), marshal)[NotKey] == Obj(ToQuery(sub, marshal))
  {
  }

  /** The accumulation the builder's test walks through:
      `exact('type', 'foo')`, then `greaterThan('count', 5)`, then
      `lessThanOrEqual('count', 10)`, which merges into one range on `count`
      instead of overwriting it (FirstComparison, SecondComparison,
      ThirdComparison). With a host that treats these operator maps as the
      default marshaller does, the final state renders to the filter the
      test expects. */
  lemma AccumulationRenders(marshal: Clause -> Value, q3: Builder)
    requires marshal(Ops(map["$eq" := Str("foo")])) == Marshal.Run(Marshal.Outbound, Obj(map["$eq" := Str("foo")]))
    requires marshal(Ops(map["$gt" := Num(5), "$lte" := Num(10)]))
          == Marshal.Run(Marshal.Outbound, Obj(map["$gt" := Num(5), "$lte" := Num(10)]))
    requires q3.clauses == map["type" := Ops(map["$eq" := Str("foo")]), "count" := Ops(map["$gt" := Num(5), "$lte" := Num(10)])]
    ensures ToQuery(q3, marshal) == map["type" := Obj(map["$eq" := Str("foo")]),
                                        "count" := Obj(map["$gt" := Num(5), "$lte" := Num(10)])]
  {
    var eq, range := map["$eq" := Str("foo")], map["$gt" := Num(5), "$lte" := Num(10)];
    PlainOperatorsUnchanged(eq);
    PlainOperatorsUnchanged(range);
    RenderOperatorMaps(q3, marshal, "type", eq, "count", range);
  }

  /** A query holding one or two operator maps that the host marshals to
      themselves renders to exactly those maps. */
  lemma RenderOperatorMaps(b: Builder, marshal: Clause -> Value, k1: string, m1: map<string, Value>, k2: string, m2: map<string, Value>)
    requires b.clauses == map[k1 := Ops(m1), k2 := Ops(m2)]
    requires marshal(Ops(m1)) == Obj(m1) && marshal(Ops(m2)) == Obj(m2)
    ensures ToQuery(b, marshal) == map[k1 := Obj(m1), k2 := Obj(m2)]
  {
  }

  lemma FirstComparison(q1: Builder)
    requires q1 == Compare(Create(), Exact, "type", Str("foo"))
    ensures q1.clauses == map["type" := Ops(map["$eq" := Str("foo")])]
  {
    CompareStores(Create(), Exact, "type", Str("foo"));
  }

  lemma SecondComparison(q1: Builder, q2: Builder)
    requires q1.clauses == map["type" := Ops(map["$eq" := Str("foo")])]
    requires q2 == Compare(q1, GreaterThan, "count", Num(5))
    ensures q2.clauses == map["type" := Ops(map["$eq" := Str("foo")]), "count" := Ops(map["$gt" := Num(5)])]
  {
    CompareStores(q1, GreaterThan, "count", Num(5));
    assert OpsOf(q1, "count") == map[];
  }

  lemma ThirdComparison(q2: Builder, q3: Builder)
    requires q2.clauses == map["type" := Ops(map["$eq" := Str("foo")]), "count" := Ops(map["$gt" := Num(5)])]
    requires q3 == Compare(q2, LessThanOrEqual, "count", Num(10))
    ensures q3.clauses == map["type" := Ops(map["$eq" := Str("foo")]), "count" := Ops(map["$gt" := Num(5), "$lte" := Num(10)])]
  {
    CompareStores(q2, LessThanOrEqual, "count", Num(10));
    assert OpsOf(q2, "count") == map["$gt" := Num(5)];
  }

  lemma CompareStores(b: Builder, c: Comparison, field: string, value: Value)
    requires Assignable(b, field)
    ensures Compare(b, c, field, value).clauses == b.clauses[field := Ops(OpsOf(b, field)[Keyword(c) := value])]
  {
  }

  /** An operator map holding only strings and numbers marshals to itself. */
  lemma PlainOperatorsUnchanged(m: map<string, Value>)
    requires forall k | k in m :: m[k].Str? || m[k].Num?
    ensures Marshal.Run(Marshal.Outbound, Obj(m)) == Obj(m)
  {
    Marshal.UnclaimedObjectStructural(Marshal.Outbound, m);
  }
}

=== FILE: seqs.dfy ===
/** Sequence helpers for the insertion-ordered sets of JavaScript (`Set`,
    repeated keys of an object): duplicate removal and filtering. */
module Seqs {

  predicate NoDup<T(==)>(s: seq<T>) {
    forall i, j | 0 <= i < j < |s| :: s[i] != s[j]
  }

  function Elems<T(==)>(s: seq<T>): set<T> {
    set x | x in s
  }

  /** `[...new Set(s)]`: the first occurrence of every element, in order. */
  function Dedup<T(==)>(s: seq<T>): (r: seq<T>)
    ensures NoDup(r)
    ensures Elems(r) == Elems(s)
  {
    if |s| == 0 then []
    else
      var d := Dedup(s[..|s| - 1]);
      assert Elems(s) == Elems(s[..|s| - 1]) + {s[|s| - 1]} by {
        assert s == s[..|s| - 1] + [s[|s| - 1]];
      }
      if s[|s| - 1] in d then d else d + [s[|s| - 1]]
  }

  /** Position `i` holds the last occurrence of its element. */
  predicate LastOccurrence<T(==)>(s: seq<T>, i: nat)
    requires i < |s|
  {
    forall j | i < j < |s| :: s[j] != s[i]
  }

  /** A sequence without duplicates is its own deduplication. */
  lemma {:induction false} DedupOfNoDup<T>(s: seq<T>)
    requires NoDup(s)
    ensures Dedup(s) == s
  {
    if |s| > 0 {
      var init := s[..|s| - 1];
      assert NoDup(init);
      DedupOfNoDup(init);
      assert s[|s| - 1] !in init;
      assert s == init + [s[|s| - 1]];
    }
  }

  lemma ElemsSnoc<T>(s: seq<T>, x: T)
    ensures Elems(s + [x]) == Elems(s) + {x}
  {
  }

  /** Deduplicating one more element appends it when it is new. */
  lemma DedupSnoc<T>(s: seq<T>, x: T)
    ensures Dedup(s + [x]) == if x in Elems(s) then Dedup(s) else Dedup(s) + [x]
  {
    assert (s + [x])[..|s|] == s;
  }

  /** The elements of `s` that are not in `t`, in order. */
  function Minus<T(==)>(s: seq<T>, t: seq<T>): (r: seq<T>)
    ensures Elems(r) == Elems(s) - Elems(t)
    ensures |r| <= |s|
  {
    if |s| == 0 then []
    else
      var rest := Minus(s[1..], t);
      var head := if s[0] in t then [] else [s[0]];
      assert Elems(s) == {s[0]} + Elems(s[1..]) by {
        assert s == [s[0]] + s[1..];
      }
      assert Elems(head + rest) == Elems(head) + Elems(rest);
      assert s[0] in t <==> s[0] in Elems(t);
      head + rest
  }

  /** Filtering by nothing keeps everything. */
  lemma {:induction false} MinusNothing<T>(s: seq<T>)
    ensures Minus(s, []) == s
  {
    if |s| > 0 {
      MinusNothing(s[1..]);
      assert s == [s[0]] + s[1..];
    }
  }

  /** Removing one more element filters once more. */
  lemma {:induction false} MinusOneMore<T>(s: seq<T>, t: seq<T>, x: T)
    ensures Minus(Minus(s, t), [x]) == Minus(s, t + [x])
  {
    if |s| > 0 {
      MinusOneMore(s[1..], t, x);
      var head := if s[0] in t then [] else [s[0]];
      MinusAppend(head, Minus(s[1..], t), [x]);
      assert Minus(s, t) == head + Minus(s[1..], t);
    }
  }

  lemma {:induction false} MinusAppend<T>(a: seq<T>, b: seq<T>, t: seq<T>)
    ensures Minus(a + b, t) == Minus(a, t) + Minus(b, t)
  {
    if |a| > 0 {
      MinusAppend(a[1..], b, t);
      assert (a + b)[1..] == a[1..] + b;
    } else {
      assert a + b == b;
    }
  }

  lemma {:induction false} MinusNoDup<T>(s: seq<T>, t: seq<T>)
    requires NoDup(s)
    ensures NoDup(Minus(s, t))
  {
    if |s| > 0 {
      assert NoDup(s[1..]);
      MinusNoDup(s[1..], t);
      assert s[0] !in Elems(s[1..]);
      assert s[0] !in Elems(Minus(s[1..], t));
    }
  }

  /** Filtering by a superset of the elements leaves nothing. */
  lemma {:induction false} MinusCovered<T>(s: seq<T>, t: seq<T>)
    requires Elems(s) <= Elems(t)
    ensures Minus(s, t) == []
  {
    if |s| > 0 {
      assert s[0] in Elems(s);
      assert Elems(s[1..]) <= Elems(s);
      MinusCovered(s[1..], t);
    }
  }

  /** Removing an element from a duplicate-free sequence leaves it
      duplicate-free and without that element. */
  lemma NoDupRemoveOne<T>(a: seq<T>, h: T, b: seq<T>)
    requires NoDup(a + [h] + b)
    ensures NoDup(a + b)
    ensures h !in Elems(a + b)
  {
    var prev := a + [h] + b;
    var now := a + b;
    forall i, j | 0 <= i < j < |now| ensures now[i] != now[j] {
      var i' := if i < |a| then i else i + 1;
      var j' := if j < |a| then j else j + 1;
      assert now[i] == prev[i'] && now[j] == prev[j'];
    }
    forall k | 0 <= k < |now| ensures now[k] != h {
      var k' := if k < |a| then k else k + 1;
      assert prev[k'] == now[k] && prev[|a|] == h;
    }
  }

  /** Filtering a duplicate-free sequence by itself without one element
      leaves exactly that element. */
  lemma MinusRemoveOne<T>(a: seq<T>, h: T, b: seq<T>)
    requires NoDup(a + [h] + b)
    ensures Minus(a + [h] + b, a + b) == [h]
  {
    NoDupRemoveOne(a, h, b);
    MinusAppend(a + [h], b, a + b);
    MinusAppend(a, [h], a + b);
    MinusCovered(a, a + b);
    MinusCovered(b, a + b);
    assert Minus([h], a + b) == [h] by {
      assert [h][1..] == [];
    }
  }
}

=== FILE: store.dfy ===
/** The `managed-indexes` collection that `Monk.manageIndexes` reads and
    writes (src/monk.ts), and the indexes that exist on a managed
    collection. One call is a cycle: load the record, reconcile, create and
    drop indexes, save the new record. */
module IndexStore {
  import opened Values
  import opened Seqs
  import opened Indexes

  /** A document of `managed-indexes`: the recorded index names of one
      collection. */
  datatype IndexRecord = IndexRecord(collection: string, indexes: seq<string>)

  /** The documents of `managed-indexes`, in natural order. */
  type Store = seq<IndexRecord>

  /** `idx.query().exact('collection', c).findOne()`: the first matching
      document in natural order. */
  function FindRecord(store: Store, c: string): (r: Option<seq<string>>)
    ensures r.None? <==> forall i | 0 <= i < |store| :: store[i].collection != c
    ensures r.Some? ==> exists i | 0 <= i < |store| ::
      && store[i] == IndexRecord(c, r.value)
      && forall j | 0 <= j < i :: store[j].collection != c
  {
    if |store| == 0 then None
    else if store[0].collection == c then Some(store[0].indexes)
    else
      var r := FindRecord(store[1..], c);
      assert forall i | 1 <= i < |store| :: store[i] == store[1..][i - 1];
      r
  }

  /** `meta?.indexes ?? []`. */
  function Loaded(store: Store, c: string): seq<string> {
    FindRecord(store, c).GetOr([])
  }

  lemma {:induction false} FindInAppended(store: Store, c: string, rec: IndexRecord)
    ensures FindRecord(store + [rec], c)
         == if FindRecord(store, c).Some? || rec.collection != c then FindRecord(store, c) else Some(rec.indexes)
  {
    if |store| > 0 {
      assert (store + [rec])[1..] == store[1..] + [rec];
      FindInAppended(store[1..], c, rec);
    }
  }

  /** `idx.save({ collection, indexes })` as written: the document carries
      no `_id`, so `save` gives it a fresh ObjectId and its upsert inserts a
      new document. Once a collection has a record, later saves are never
      seen by the lookup. As written, the lookup itself raises on any stored
      record, because reading it back goes through the renaming unit whose
      `omit` is unbound (Marshal.RenamerAsWritten); this save models the
      call with that defect fixed. */
  function SaveAsWritten(store: Store, c: string, hashes: seq<string>): (r: Store)
    ensures |r| == |store| + 1
    ensures FindRecord(r, c) == if FindRecord(store, c).Some? then FindRecord(store, c) else Some(hashes)
    ensures forall d | d != c :: FindRecord(r, d) == FindRecord(store, d)
  {
    var r := store + [IndexRecord(c, hashes)];
    FindInAppended(store, c, IndexRecord(c, hashes));
    forall d | d != c ensures FindRecord(r, d) == FindRecord(store, d) {
      FindInAppended(store, d, IndexRecord(c, hashes));
    }
    r
  }

  /** The documents of other collections. */
  function Without(store: Store, c: string): (r: Store)
    ensures forall i | 0 <= i < |r| :: r[i].collection != c
    ensures forall d | d != c :: FindRecord(r, d) == FindRecord(store, d)
  {
    if |store| == 0 then []
    else
      var rest := Without(store[1..], c);
      if store[0].collection == c then rest else [store[0]] + rest
  }

  /** The evidently intended save: one record per collection, overwritten
      by every save (an upsert keyed by the collection name). */
  function SaveRecord(store: Store, c: string, hashes: seq<string>): (r: Store)
    ensures FindRecord(r, c) == Some(hashes)
    ensures forall d | d != c :: FindRecord(r, d) == FindRecord(store, d)
  {
    var kept := Without(store, c);
    FindInAppended(kept, c, IndexRecord(c, hashes));
    forall d | d != c ensures FindRecord(kept + [IndexRecord(c, hashes)], d) == FindRecord(store, d) {
      FindInAppended(kept, d, IndexRecord(c, hashes));
    }
    kept + [IndexRecord(c, hashes)]
  }

  /** The store, and the names of the managed indexes that exist on one
      collection. */
  datatype Deployment = Deployment(store: Store, live: set<string>)

  /** A store whose every create call succeeds. */
  function AlwaysOk(call: CreateCall): bool {
    true
  }

  /** The create calls of an outcome that took effect: on a refused
      create, the last call issued is the refused one and built nothing. */
  function Applied(out: Outcome): (r: seq<CreateCall>)
    ensures out.Done? ==> r == out.creates
    ensures out.Failed? && out.failure.CreateFailed? && |out.issued| > 0 ==> |r| + 1 == |out.issued| && r < out.issued
    ensures out.Failed? && !(out.failure.CreateFailed? && |out.issued| > 0) ==> r == out.issued
  {
    match out
    case Done(creates, _, _) => creates
    case Failed(issued, f) =>
      if f.CreateFailed? && |issued| > 0 then issued[..|issued| - 1] else issued
  }

  /** The indexes on the collection after the effects of one outcome:
      names of the creates that took effect are added, dropped names
      removed. */
  function Deploy(live: set<string>, out: Outcome): (r: set<string>)
    ensures out.Failed? ==> live <= r
    ensures out.Done? ==> r !! Elems(out.drops)
    ensures out.Done? ==> (live + Elems(CreatedNames(out.creates))) - Elems(out.drops) <= r
    ensures r <= live + Elems(CreatedNames(Applied(out)))
  {
    match out
    case Done(_, drops, _) => (live + Elems(CreatedNames(Applied(out)))) - Elems(drops)
    case Failed(_, _) => live + Elems(CreatedNames(Applied(out)))
  }

  /** The reconciliation of `c` against its loaded record, as `Reconcile`
      computes it (see OutcomeForIsReconcile). */
  function OutcomeFor(store: Store, c: string, specs: seq<IndexSpec>, hash: HashInput -> string): Outcome {
    Finish(Fold(Loaded(store, c), specs, hash, AlwaysOk))
  }

  lemma OutcomeForIsReconcile(store: Store, c: string, specs: seq<IndexSpec>, hash: HashInput -> string)
    ensures OutcomeFor(store, c, specs, hash) == Reconcile(Loaded(store, c), specs, hash, AlwaysOk)
  {
  }

  /** One `manageIndexes` call for collection `c`, saving as written. */
  function CycleAsWritten(dep: Deployment, c: string, specs: seq<IndexSpec>, hash: HashInput -> string): Deployment {
    var out := OutcomeFor(dep.store, c, specs, hash);
    Deployment(if out.Done? then SaveAsWritten(dep.store, c, out.record) else dep.store, Deploy(dep.live, out))
  }

  /** One `manageIndexes` call for collection `c`, overwriting the record. */
  function Cycle(dep: Deployment, c: string, specs: seq<IndexSpec>, hash: HashInput -> string): Deployment {
    var out := OutcomeFor(dep.store, c, specs, hash);
    Deployment(if out.Done? then SaveRecord(dep.store, c, out.record) else dep.store, Deploy(dep.live, out))
  }

  /** The record of `c` names exactly the managed indexes that exist. */
  predicate Consistent(dep: Deployment, c: string) {
    Elems(Loaded(dep.store, c)) == dep.live
  }

  /** Against a consistent record, one cycle leaves exactly the declared
      indexes in place. */
  lemma CycleLeavesDeclared(live: set<string>, recorded: seq<string>, specs: seq<IndexSpec>, hash: HashInput -> string)
    requires Elems(recorded) == live
    requires WellFormed(specs)
    ensures Reconcile(recorded, specs, hash, AlwaysOk).Done?
    ensures Deploy(live, Reconcile(recorded, specs, hash, AlwaysOk)) == Elems(Declared(specs, hash))
  {
    CreatesCoverNew(recorded, specs, hash);
  }

  /** With the record overwritten, every cycle from a consistent state
      leaves exactly the declared indexes and a consistent record. */
  lemma CycleConverges(dep: Deployment, c: string, specs: seq<IndexSpec>, hash: HashInput -> string)
    requires Consistent(dep, c)
    requires WellFormed(specs)
    ensures Cycle(dep, c, specs, hash).live == Elems(Declared(specs, hash))
    ensures Consistent(Cycle(dep, c, specs, hash), c)
  {
    CycleLeavesDeclared(dep.live, Loaded(dep.store, c), specs, hash);
  }

  /** Saving as written, the first cycle of a collection still converges. */
  lemma FirstCycleAsWrittenConverges(dep: Deployment, c: string, specs: seq<IndexSpec>, hash: HashInput -> string)
    requires Consistent(dep, c) && FindRecord(dep.store, c).None?
    requires WellFormed(specs)
    ensures CycleAsWritten(dep, c, specs, hash).live == Elems(Declared(specs, hash))
    ensures Consistent(CycleAsWritten(dep, c, specs, hash), c)
  {
    CycleLeavesDeclared(dep.live, Loaded(dep.store, c), specs, hash);
  }

  /** Two index declarations, and a hash that tells them apart by their
      `sparse` flag. */
  const IndexA := IndexSpec([[("foo", Ascending)]], None, None)
  const IndexB := IndexSpec([[("baz", Text)]], Some(true), None)

  function ExampleHash(x: HashInput): string {
    if x.sparse then "b" else "a"
  }

  lemma ExampleNames()
    ensures WellFormed([IndexA, IndexB]) && WellFormed([IndexA])
    ensures Declared([IndexA, IndexB], ExampleHash) == ["a", "b"]
    ensures Declared([IndexA], ExampleHash) == ["a"]
  {
    assert [IndexA, IndexB][..1] == [IndexA];
  }

  /** The state after declaring [A, B] on an empty store, saving as
      written. */
  lemma AsWrittenFirst()
    ensures CycleAsWritten(Deployment([], {}), "foo", [IndexA, IndexB], ExampleHash)
         == Deployment([IndexRecord("foo", ["a", "b"])], {"a", "b"})
  {
    ExampleNames();
    assert Elems(["a", "b"]) == {"a", "b"};
    FirstCycleAsWrittenConverges(Deployment([], {}), "foo", [IndexA, IndexB], ExampleHash);
    OutcomeForIsReconcile([], "foo", [IndexA, IndexB], ExampleHash);
    var out := OutcomeFor([], "foo", [IndexA, IndexB], ExampleHash);
    assert NoDup(["a", "b"]);
    DedupOfNoDup(["a", "b"]);
    assert out.Done? && out.record == ["a", "b"];
  }

  /** Then declaring [A] drops B and appends a second record. */
  lemma AsWrittenSecond()
    ensures CycleAsWritten(Deployment([IndexRecord("foo", ["a", "b"])], {"a", "b"}), "foo", [IndexA], ExampleHash)
         == Deployment([IndexRecord("foo", ["a", "b"]), IndexRecord("foo", ["a"])], {"a"})
  {
    var store := [IndexRecord("foo", ["a", "b"])];
    ExampleNames();
    assert Elems(["a", "b"]) == {"a", "b"};
    assert Elems(["a"]) == {"a"};
    assert Loaded(store, "foo") == ["a", "b"];
    OutcomeForIsReconcile(store, "foo", [IndexA], ExampleHash);
    CycleLeavesDeclared({"a", "b"}, ["a", "b"], [IndexA], ExampleHash);
    DedupOfNoDup(["a"]);
  }

  /** Declaring [A, B], then [A], then [A, B] again leaves index B missing
      when records are appended: the third call loads the first record,
      which still lists B, so B is neither created nor in place. The
      scenario presupposes the unbound `omit` of the renaming unit fixed:
      as written, the second call already rejects at the record lookup. */
  lemma StaleRecordLosesIndex()
    ensures var dep0 := Deployment([], {});
      var dep1 := CycleAsWritten(dep0, "foo", [IndexA, IndexB], ExampleHash);
      var dep2 := CycleAsWritten(dep1, "foo", [IndexA], ExampleHash);
      var dep3 := CycleAsWritten(dep2, "foo", [IndexA, IndexB], ExampleHash);
      && dep3.live == {"a"}
      && "b" in Elems(Declared([IndexA, IndexB], ExampleHash))
  {
    AsWrittenFirst();
    AsWrittenSecond();
    AsWrittenThird();
    ExampleNames();
    assert "b" in ["a", "b"];
  }

  /** Then declaring [A, B] again loads the first, stale record, which
      still lists B: nothing is created and B stays missing. */
  lemma AsWrittenThird()
    ensures CycleAsWritten(Deployment([IndexRecord("foo", ["a", "b"]), IndexRecord("foo", ["a"])], {"a"}),
                           "foo", [IndexA, IndexB], ExampleHash).live == {"a"}
  {
    var store := [IndexRecord("foo", ["a", "b"]), IndexRecord("foo", ["a"])];
    ExampleNames();
    assert NoDup(["a", "b"]);
    assert Loaded(store, "foo") == ["a", "b"];
    OutcomeForIsReconcile(store, "foo", [IndexA, IndexB], ExampleHash);
    RerunIsIdempotent([IndexA, IndexB], ExampleHash, AlwaysOk);
    assert OutcomeFor(store, "foo", [IndexA, IndexB], ExampleHash) == Done([], [], ["a", "b"]);
    assert CreatedNames([]) == [];
  }

  /** A store that refuses every create call. */
  function Refuse(call: CreateCall): bool {
    false
  }

  /** A refused create leaves no index behind: when a collection rejects
      because the store refused a create, the indexes afterwards are the
      ones before plus those of the creates issued ahead of the refused
      one. */
  lemma RefusedCreateNotDeployed(live: set<string>, recorded: seq<string>, specs: seq<IndexSpec>,
                                 hash: HashInput -> string, createOk: CreateCall -> bool)
    requires Reconcile(recorded, specs, hash, createOk).Failed?
    requires Reconcile(recorded, specs, hash, createOk).failure.CreateFailed?
    ensures var out := Reconcile(recorded, specs, hash, createOk);
      && |out.issued| > 0
      && Deploy(live, out) == live + Elems(CreatedNames(out.issued[..|out.issued| - 1]))
  {
    var l := Fold(recorded, specs, hash, createOk);
    assert Reconcile(recorded, specs, hash, createOk) == Finish(l);
  }

  /** Declaring [A] on an empty collection whose store refuses the create
      rejects and changes nothing. */
  lemma RefusedCreateExample()
    ensures Reconcile([], [IndexA], ExampleHash, Refuse).Failed?
    ensures Deploy({}, Reconcile([], [IndexA], ExampleHash, Refuse)) == {}
  {
    assert [IndexA][..0] == [];
    var call := CallFor(IndexA, ExampleHash);
    assert Fold([], [IndexA], ExampleHash, Refuse) == Stopped([call], CreateFailed(call));
    assert Applied(Failed([call], CreateFailed(call))) == [];
    assert CreatedNames([]) == [];
  }

  /** With the record overwritten, the same three calls leave both indexes
      in place. */
  lemma OverwrittenRecordKeepsIndex()
    ensures var dep0 := Deployment([], {});
      var dep1 := Cycle(dep0, "foo", [IndexA, IndexB], ExampleHash);
      var dep2 := Cycle(dep1, "foo", [IndexA], ExampleHash);
      var dep3 := Cycle(dep2, "foo", [IndexA, IndexB], ExampleHash);
      dep3.live == {"a", "b"}
  {
    ExampleNames();
    assert Elems(["a", "b"]) == {"a", "b"};
    var dep0 := Deployment([], {});
    CycleConverges(dep0, "foo", [IndexA, IndexB], ExampleHash);
    var dep1 := Cycle(dep0, "foo", [IndexA, IndexB], ExampleHash);
    CycleConverges(dep1, "foo", [IndexA], ExampleHash);
    var dep2 := Cycle(dep1, "foo", [IndexA], ExampleHash);
    CycleConverges(dep2, "foo", [IndexA, IndexB], ExampleHash);
  }
}

=== FILE: util.dfy ===
/** The document helpers of src/util.ts: the development-mode integrity check
    `checkPojo`, its classifier `isValidMongoObj`, and `omit`. */
module Util {
  import opened Values
  import opened Seqs

  /** Outcome of `isValidMongoObj`, which either answers or raises a
      TypeError (reading `constructor` of null). */
  datatype Classified = Answer(valid: bool) | RaisesTypeError

  /** `isValidMongoObj(doc)`: non-objects are valid; an object is valid when
      its `constructor` is `Object`, when it is an array, a Date or an
      ObjectId. A plain object that carries its own `constructor` property
      shadows `Object` and is therefore classified as invalid. */
  function IsValidMongoObj(v: Value): (r: Classified)
    ensures r.RaisesTypeError? <==> v.Null?
    ensures !v.Null? ==> r == Answer(
      || !v.IsObject()
      || (v.Obj? && "constructor" !in v.fields)
      || v.Arr? || v.DateV? || v.ObjId?)
  {
    match v
    case Null => RaisesTypeError
    case Bool(_) => Answer(true)
    case Num(_) => Answer(true)
    case Str(_) => Answer(true)
    case Obj(m) => Answer("constructor" !in m)
    case Arr(_) => Answer(true)
    case DateV(_) => Answer(true)
    case ObjId(_) => Answer(true)
    case Bytes(_) => Answer(false)
    case Instance(_, _) => Answer(false)
  }

  /** Whether `checkPojo(v)` returns normally rather than raising
      InvalidDocumentError. The branches follow the source in order: falsy
      and non-object values, arrays, Date and Uint8Array return at once; an
      object rejected by `isValidMongoObj` raises; otherwise every property
      value is checked in turn. An ObjectId is treated as having no
      enumerable properties of its own. */
  predicate CheckPojo(v: Value) {
    if !v.IsObject() then true
    else if v.Arr? then true
    else if v.DateV? || v.Bytes? then true
    else if IsValidMongoObj(v) != Answer(true) then false
    else match v
      case Obj(m) => forall k | k in m :: CheckPojo(m[k])
      case _ => true
  }

  /** The documents `checkPojo(v)` may carry in the InvalidDocumentError it
      raises: every object reachable from `v` through plain-object
      properties only that `isValidMongoObj` rejects. Which one is raised
      depends on property enumeration order. */
  function Offenders(v: Value): (r: set<Value>)
    ensures forall d | d in r :: d.IsObject() && IsValidMongoObj(d) == Answer(false)
    ensures v.Arr? || v.DateV? || v.Bytes? || !v.IsObject() ==> r == {}
  {
    match v
    case Instance(_, _) => {v}
    case Obj(m) =>
      if "constructor" in m then {v}
      else set k, d | k in m && d in Offenders(m[k]) :: d
    case _ => {}
  }

  /** `checkPojo` raises exactly when some offender exists, and a plain
      object is accepted iff every property value is accepted. */
  lemma {:induction false} CheckPojoRaisesIffOffender(v: Value)
    ensures CheckPojo(v) <==> Offenders(v) == {}
    ensures v.Obj? && "constructor" !in v.fields ==>
      (CheckPojo(v) <==> forall k | k in v.fields :: CheckPojo(v.fields[k]))
  {
    match v
    case Obj(m) =>
      if "constructor" !in m {
        forall k | k in m
          ensures CheckPojo(m[k]) <==> Offenders(m[k]) == {}
        {
          CheckPojoRaisesIffOffender(m[k]);
        }
        if !CheckPojo(v) {
          var k :| k in m && !CheckPojo(m[k]);
          var d :| d in Offenders(m[k]);
          assert d in Offenders(v);
        }
      }
    case _ =>
  }

  /** Arrays are accepted without looking at their elements, even when an
      element is an object the check would reject on its own. */
  lemma ArrayElementsNotInspected(items: seq<Value>)
    requires exists i :: 0 <= i < |items| && !CheckPojo(items[i])
    ensures CheckPojo(Arr(items))
  {
  }

  /** `omit(obj, ...props)`: the entries of `obj` whose key is not among
      `props`, values unchanged. */
  function Omit(m: map<string, Value>, props: seq<string>): (r: map<string, Value>)
    ensures r.Keys == m.Keys - Elems(props)
    ensures forall k | k in r :: r[k] == m[k]
  {
    map k | k in m && k !in props :: m[k]
  }

  /** Putting back the one omitted entry restores the object. */
  lemma OmitRestore(m: map<string, Value>, key: string)
    requires key in m
    ensures Omit(m, [key])[key := m[key]] == m
  {
  }
}

=== FILE: values.dfy ===
/** The small vocabulary shared by every part of the model: an optional value
    and the JSON-like values that documents, filters and marshalled data are
    made of. */
module Values {

  datatype Option<+T> = None | Some(value: T) {
    function GetOr(default: T): T {
      match this
      case Some(v) => v
      case None => default
    }
  }

  /** A JavaScript value as far as this library looks at it.
      - `Num` stands for a JavaScript number; the model uses integers.
      - `ObjId` is a MongoDB ObjectId, `DateV` a Date, `Bytes` a Uint8Array.
      - `Obj` is a plain object (its constructor is Object); `fields` are its
        own enumerable string-keyed properties.
      - `Instance` is an object of some other class `cls`, with its own
        enumerable properties in `fields`. */
  datatype Value =
    | Null
    | Bool(b: bool)
    | Num(n: int)
    | Str(s: string)
    | ObjId(oid: nat)
    | DateV(time: int)
    | Bytes(data: seq<bv8>)
    | Arr(items: seq<Value>)
    | Obj(fields: map<string, Value>)
    | Instance(cls: string, fields: map<string, Value>)
  {
    /** `typeof v === 'object' && v !== null` */
    predicate IsObject() {
      !(Null? || Bool? || Num? || Str?)
    }

    /** An object value whose own property `key` holds an ObjectId
        (`v?.[key] instanceof ObjectId` on an object). */
    predicate HasObjIdAt(key: string) {
      (Obj? || Instance?) && key in fields && fields[key].ObjId?
    }
  }
}
